=== FILE: README.md ===
# Slowtris game-state core in Dafny

Slowtris is a turn-based falling-block game. It has no gravity clock. Every accepted
move counts, the second move in a row pulls the piece down one row, and a resting piece
locks after a lock delay counted in moves. This project is a functional model of the
game-state core, with proofs about it:

- **`tetromino.dfy` (`Tetromino`)**: the seven-piece catalog, the clockwise rotation, and
  the 7-bag randomiser. `Math.random` is replaced by an explicit `Swaps` value: the six
  swap indices of one Fisher–Yates pass, with `0 <= js[k] <= 6 - k`. The shuffle is
  therefore a function of that choice, and the properties hold for every choice.
- **`storage.dfy` (`Storage`)**: the highscore table as an in-memory value. It covers
  the default table, the strict-greater qualification test, and insertion (push, stable
  descending sort, keep ten).
- **`board.dfy` (`Board`)**: the 10 x 20 board of `game.js`:
  - `isValidPosition` as the same cell-by-cell scan, checked against a declarative
    reference `Fits`;
  - `placeTetromino`'s writes;
  - the full-row scan and the line score;
  - the row removal of the deferred callback, exactly as written.
- **`game.js`'s module variables** become one immutable `Session` record, in
  `game.dfy` (`Game`):
  - `handleKeydown` is the pure step `Step(session, key, js)`;
  - the flash timer's callback is the separate step `ResolveFlash`;
  - `Handle`/`Run` feed a sequence of key and timer events.

  Every step keeps the invariant `Inv`. It says:
  - the board is 20 x 10;
  - the table has ten sorted entries;
  - the name buffer holds at most four upper-case letters or digits;
  - flashing rows are full and ascending, and flash only during Play;
  - NameEntry is reached only with a qualifying score;
  - between turns in Play, the piece is at a legal position and `moveCount` is 0 or 1.
- **`game_properties.dfy` (`GameProperties`)**: what each key does in each phase, the
  gravity and lock-delay rules one case at a time, and concrete scenarios.
- **`seq_util.dfy` (`SeqUtil`)**: sequence reversal.

Keys are JavaScript `e.key` strings (`"ArrowLeft"`, `"z"`, `" "`, `"Enter"`, ...). The
flash row list `[]` stands for `flashRowsActive === null`.

## Model

| member | source | states |
|---|---|---|
| Tetromino.CatalogWellFormed | tetromino.js:2-10 | every one of the seven catalog shapes is a rectangular 0/1 matrix with exactly four occupied cells |
| Tetromino.CatalogShapeFacts | tetromino.js:2-10 | each catalog shape is a 0/1 matrix of at most two rows and four columns with four occupied cells |
| Tetromino.ThreeWideCells | tetromino.js:4-9 | the J, L, S, T and Z shapes are two rows by three columns with four occupied cells |
| Tetromino.CatalogShapeSolid | tetromino.js:2-10 | every catalog shape is a matrix with at least one occupied cell |
| Tetromino.Rotate | tetromino.js:28-31 | rotating an R x C matrix gives a rectangular C x R matrix |
| Tetromino.RotateCell | tetromino.js:28-31 | `rotate(s)[i][j] == s[R-1-j][i]` for every cell of the result |
| Tetromino.RotateTwice | tetromino.js:28-31 | two rotations give the half turn: cell (i, j) comes from (R-1-i, C-1-j) |
| Tetromino.RotateFourTimes | tetromino.js:28-31 | four clockwise rotations give back the original matrix |
| Tetromino.RotateMovesCells | tetromino.js:28-31 | the occupied cells after rotation are exactly the quarter-turned occupied cells |
| Tetromino.QuarterTurnKeepsSize | tetromino.js:30 | the quarter turn of cell coordinates is injective on any finite set of cells |
| Tetromino.RotateKeepsCellCount | tetromino.js:28-31 | rotation keeps the number of occupied cells |
| Tetromino.RotateKeepsBinary | tetromino.js:28-31 | rotating a 0/1 matrix gives a 0/1 matrix |
| Tetromino.RotateKeepsSolid | tetromino.js:28-31 | a matrix with an occupied cell still has one after rotation |
| Tetromino.OrientationCellCount | tetromino.js:2-10 | each of the rotations of a catalog shape has four occupied cells |
| Tetromino.NextOrientation | tetromino.js:28-31 | rotating the n-th rotation of a shape gives rotation (n+1) mod 4 |
| Tetromino.FourthTurn | tetromino.js:28-31 | rotating the third rotation gives back the shape |
| Tetromino.RotateKeepsOriented | tetromino.js:28-31 | rotating a piece that is one of its kind's four orientations gives another of them |
| Tetromino.FreshPieceOriented | tetromino.js:24 | a fresh copy of a catalog shape is an orientation of its kind |
| Tetromino.SwapPermutes | tetromino.js:17 | one exchange keeps the bag's contents with multiplicities |
| Tetromino.FisherYatesPermutes | tetromino.js:15-18 | for every admissible choice of swap indices the shuffle loop only reorders the bag |
| Tetromino.NewBagPermutes | tetromino.js:13-19 | a new bag is a permutation of the kinds 0..6 |
| Tetromino.PermutationHoldsEachKindOnce | tetromino.js:14 | a permutation of 0..6 has seven elements and holds every kind exactly once |
| Tetromino.Pop | tetromino.js:23-25 | the draw returns the bag's last kind with a copy of its catalog shape, and the rest of the bag is the bag without that last element |
| Tetromino.NextTetromino | tetromino.js:21-26 | an empty bag is refilled by a shuffle first, then exactly one kind is removed from the end and returned with its catalog shape |
| Tetromino.DealDrainsBag | tetromino.js:21-26 | successive draws from a bag with as many draws as kinds deal the bag's contents from the end |
| Tetromino.SevenDrawsFromEmpty | tetromino.js:13-26 | seven draws from an empty bag refill it once and deal the refill back to front |
| Tetromino.SevenDrawsDealEachKindOnce | tetromino.js:13-26 | seven draws from an empty bag or from a full shuffled bag deal every kind exactly once |
| Storage.DefaultTable | storage.js:11 | the default table has ten entries, each named `----` with score 0 |
| Storage.DefaultTableQualification | storage.js:20-22 | the default table is sorted, and on it a score qualifies exactly when it is positive |
| Storage.InsertByScorePermutes | storage.js:26 | one insertion step adds exactly the new entry to the table's contents |
| Storage.SortByScore | storage.js:26 | the sort keeps the table's contents and orders scores descending |
| Storage.InsertByScoreAtEnd | storage.js:26 | an entry scoring no more than every other entry goes last, so appended entries keep their order |
| Storage.SortSortedIsIdentity | storage.js:26 | sorting an already sorted table changes nothing |
| Storage.InsertByScoreStable | storage.js:26 | inserting into a sorted table puts the new entry after every entry with the same score, leaving their order |
| Storage.SortByScoreStable | storage.js:26 | the sort is stable: for every score, the entries with that score come out in the order they went in |
| Storage.FirstBelow | storage.js:26 | returns the rank of a score: every earlier entry scores at least as much, and the entry at the rank scores less |
| Storage.InsertByScoreSplit | storage.js:26 | the insertion step puts the new entry just before the first entry scoring less |
| Storage.InsertByScoreRank | storage.js:26 | on a sorted table the new entry lands after every entry with an equal or higher score (ties keep the older entry first) and before every lower one |
| Storage.InsertByScoreKeepsSorted | storage.js:26 | inserting into a sorted table keeps it sorted |
| Storage.InsertHighscore | storage.js:24-29 | after insertion the length is min(old length + 1, 10), scores are non-increasing, and every entry comes from the old table or is the new one, counted with multiplicity |
| Storage.InsertHighscoreOnSorted | storage.js:25-27 | on a sorted table, push-sort-truncate is inserting the new entry at its rank and keeping ten |
| Storage.QualifyingScoreIsInserted | storage.js:20-27 | on a full sorted table, a qualifying score is inserted at its rank and the old tenth entry drops out; a score that does not qualify leaves the table unchanged |
| Board.EmptyRow | game.js:299 | an empty row has ten zero cells |
| Board.EmptyBoard | game.js:110-112 | the reset board is 20 rows of 10 zero cells |
| Board.RowFitsIff | game.js:250-262 | the scan of one shape row succeeds exactly when none of its occupied cells is off the board or on a filled cell |
| Board.RowsFitIff | game.js:249-264 | the scan of the shape's rows succeeds exactly when no occupied cell of those rows is blocked |
| Board.ValidIffFits | game.js:247-265 | `isValidPosition` is false exactly when some occupied shape cell at offset (x, y) is outside [0,10) x [0,20) or on a non-zero board cell |
| Board.FitsAboveFloor | game.js:254-259 | at a legal position every occupied cell is on the board |
| Board.ValidIsOnBoard | game.js:247-265 | a legal position places every occupied cell on the board, so the placement loop never writes out of range |
| Board.PlaceRowCells | game.js:273-277 | writing one shape row sets exactly the covered cells of that board row to the value and leaves all others |
| Board.PlaceRowsCells | game.js:272-278 | writing the shape's rows from a given row sets exactly their covered cells |
| Board.PlaceCells | game.js:271-278 | placing a piece writes `type + 1` into exactly the covered cells and leaves every other cell unchanged |
| Board.FullRowsFromFacts | game.js:283-288 | the scan from a row lists, in ascending order, exactly the full rows from there down |
| Board.FullRowsFacts | game.js:283-288 | the full-row list is ascending and holds a row exactly when every cell of it is filled |
| Board.NoFullRowsFrom | game.js:283-288 | the scan from a row finds nothing when no row from there down is full |
| Board.NoFullRows | game.js:283-289 | the list is empty exactly when no row is full |
| Board.LineScore | game.js:291 | clearing 1, 2, 3 or 4 rows scores a positive amount that grows with the number of rows, and any other count scores 0 |
| Board.ClearRowsAsWritten | game.js:296-300 | the removal loop keeps a 20 x 10 board |
| Board.ClearOneRow | game.js:296-300 | clearing one row r gives an empty row, then old rows 0..r-1, then old rows r+1..19 |
| Board.ClearTwoRowsAsWritten | game.js:295-300 | clearing rows hi > lo as written gives two empty rows on top, then old rows 0..lo-2, lo..hi-1 and hi+1..19: old row lo - 1 is deleted in place of row lo |
| Board.BottomTwoRowsClearLeavesFullRow | game.js:295-300 | with rows 18 and 19 full, the clear leaves old row 18, still full, as the bottom row |
| Game.SpawnX | game.js:117 | the spawn column is `floor(10/2) - ceil(width/2)`: between 3 and 5 for widths up to 4, and it centres the piece |
| Game.Spawn | game.js:114-120 | the next piece becomes current at the spawn column of row 0 with `moveCount` 0, a new next piece is drawn with its catalog shape, and nothing else changes |
| Game.SpawnDraws | game.js:114-120 | spawning takes the new next piece from the end of the bag, refilling an empty bag first |
| Game.StartGame | game.js:97-111 | a new game has an empty board, score and counters 0, and no flash; `next` and `current` are the last two kinds of a fresh shuffled bag, with their catalog shapes, and the rest of that bag is kept; the first piece is at the spawn position, which is always legal |
| Game.SpawnFitsEmptyBoard | game.js:97-120 | every catalog shape fits the empty board at its spawn position |
| Game.SetPhase | game.js:48-67 | entering the current phase does nothing; entering Play starts a new game on an empty board with score 0; entering any other phase changes the phase and nothing else |
| Game.EndGame | game.js:319-326 | a score that beats the tenth entry goes to name entry with an empty name; any other score goes to game over; nothing but the phase and the name changes |
| Game.EndGameSetsPhase | game.js:319-326 | ending the game is `setGameState` on the chosen screen |
| Game.SpawnAndCheck | game.js:309-316 | the next piece becomes current at the spawn position with `moveCount` 0; a new `next` is drawn from the bag as `Spawn` does; the game goes on exactly when it fits, and otherwise ends by the highscore check; nothing else changes apart from the phase and the name buffer |
| Game.Lock | game.js:271-316 | locking writes the piece into the board, flashes exactly the full rows in ascending order, and adds the line score for their number; when rows flash, nothing else changes (the piece, `next`, position and counters stay until the clear); when none is full, the result is spawning the next piece on the new board with its game-over check |
| Game.ResolveFlash | game.js:294-308 | the deferred clear removes the rows as the callback does, ends the flash and keeps the score; the next piece appears at the spawn position and a new `next` is drawn from the bag; play goes on exactly when it fits, otherwise the game ends by the highscore check; nothing else changes apart from the phase and the name buffer |
| Game.ValidAboveFloor | game.js:247-265 | a piece with an occupied cell at a legal position is above the floor |
| Game.DropRow | game.js:176-178 | the hard-drop row is the first row, from the current one down, whose next row is illegal: every row passed through is legal |
| Game.Gravity | game.js:184-195 | a manual down resets `moveCount`; a first move sets it to 1; a second move resets it to 0 and moves the piece down one row exactly when that row is legal |
| Game.Settle | game.js:196-216 | the lock-delay step keeps the invariant and never lowers the score |
| Game.AfterMove | game.js:183-218 | the drop and lock-delay steps after a move keep the invariant and never lower the score |
| Game.Shift | game.js:143-152 | a left or right arrow keeps the invariant, the table, and a score at least as high |
| Game.SoftDrop | game.js:153-162 | the down arrow keeps the invariant, the table, and a score at least as high |
| Game.TurnTo | game.js:163-174 | a rotation key keeps the invariant, the table, and a score at least as high |
| Game.HardDrop | game.js:175-181 | the hard drop keeps the invariant, the table, and a score at least as high |
| Game.PlayKey | game.js:137-218 | every key in Play keeps the invariant and the table and never lowers the score |
| Game.TurnRight | game.js:169-174 | the clockwise turn is `rotate` of the shape, whose cell map is `Tetromino.RotateCell`; it keeps the kind and a solid shape, swaps height and width, and maps an orientation of the kind to another |
| Game.TurnLeft | game.js:163-168 | the counter-clockwise turn keeps the kind and a solid shape, is undone by one clockwise turn, and maps an orientation of the kind to another |
| Game.Upper | game.js:232 | `toUpperCase` maps a lower-case letter 32 code points down and keeps upper-case letters and digits |
| Game.PadName | game.js:235 | `padEnd(4, '-')` keeps the name as a prefix and fills up to four characters with `-` |
| Game.NameKey | game.js:224-238 | Backspace removes the last character; a letter or digit is appended in upper case below four characters and ignored at four; Enter with a name inserts the padded name and score into the table and shows the highscores; every other key, and Enter with no name, does nothing |
| Game.Step | game.js:128-245 | every key keeps the invariant, and while rows flash every key is ignored |
| Game.Handle | game.js:293-308 | a key or the flash timer keeps the invariant |
| Game.Run | game.js:128-245 | any run of key and timer events keeps the invariant |
| Game.Initial | game.js:37-46 | the game starts on the title screen with the default table, satisfying the invariant |
| GameProperties.TitleKeys | game.js:129-136 | on the title, Enter starts a game on an empty board with score 0 and the first piece at a legal spawn position; `h`/`H` shows the highscores; any other key is ignored |
| GameProperties.BackToTitle | game.js:220-243 | game over and the highscore list go back to the title on Enter and ignore every other key |
| GameProperties.FlashIgnoresKeys | game.js:138 | while rows are flashing every key is ignored |
| GameProperties.PlayStep | game.js:137-139 | with no flash, a key in Play goes to the play handler |
| GameProperties.KeyDispatch | game.js:143-182 | which handler each key reaches: arrows shift or drop, `z`/`Z` turns left, `x`/`X`/ArrowUp turns right, space and Enter hard-drop, all other keys do nothing |
| GameProperties.FirstMoveSettles | game.js:184-216 | a first move that leaves the piece in the air sets `moveCount` to 1 and `lockMoves` to 0, and pulls down a piece that was resting |
| GameProperties.SecondMoveSettles | game.js:187-194 | a second move in a row from the air moves the piece down one row and resets the count |
| GameProperties.DownSettles | game.js:184-216 | after a manual step down by a piece that was not resting, both counters are 0 and the piece stays where the step put it |
| GameProperties.RestingMoveSettles | game.js:184-207 | a first or second move that leaves the piece resting does not move it down, sets `moveCount` to 1 or 0, restarts the lock count at 0 (or increments it if the piece was resting before), and locks once it reaches 2 |
| GameProperties.SecondMoveOffLedge | game.js:186-215 | a second move in a row that takes a resting piece into the air moves it down one row, then either counts one more lock move there (locking at 2) or, if it is still in the air, moves it down a second row with both counters 0 |
| GameProperties.BlockedShiftIgnored | game.js:143-152 | a shift to an illegal position leaves the session unchanged |
| GameProperties.BlockedTurnIgnored | game.js:163-174 | a rotation to an illegal position leaves the session unchanged |
| GameProperties.DownMoves | game.js:153-157 | a legal down moves one row and resets `moveCount` and `lockMoves` |
| GameProperties.SoftDropSteps | game.js:153-157 | a legal down is a manual move from a piece that was not resting |
| GameProperties.ShiftSteps | game.js:143-152 | a legal shift is a non-manual move, judged resting or not from where it started |
| GameProperties.TurnSteps | game.js:163-174 | a legal turn is a non-manual move, judged resting or not from where it started |
| GameProperties.DownLocks | game.js:158-162 | down from a resting position locks at once |
| GameProperties.HardDropLands | game.js:175-181 | the hard drop passes through legal rows only and locks the piece in the first row where it rests |
| GameProperties.FirstShiftInAir | game.js:143-195 | the first shift of a piece in the air only counts the move |
| GameProperties.SecondShiftDrops | game.js:187-194 | every second shift in a row of a piece in the air also drops it one row |
| GameProperties.TurnInAir | game.js:163-195 | a legal rotation in the air counts as a move |
| GameProperties.ComesToRest | game.js:197-199 | a piece that comes to rest by a shift starts its lock count at 0 |
| GameProperties.RestingShiftCounts | game.js:200-202 | a resting piece that shifts and still rests increments its lock count |
| GameProperties.RestingShiftLocks | game.js:203-207 | the lock count reaching 2 locks the piece in its shifted place |
| GameProperties.SlidesOffLedge | game.js:208-215 | a resting piece shifted off its ledge falls one row at once and its lock count returns to 0 |
| GameProperties.SecondShiftOffLedgeDropsTwo | game.js:186-215 | a second shift in a row that slides a resting piece into open air two rows deep drops it two rows, with both counters 0 |
| GameProperties.LockCountCarriesOver | game.js:114-120 | the spawn does not reset `lockMoves`: a piece locked by the lock delay hands a count of 2 to the next piece |
| GameProperties.ShiftedLockSpawns | game.js:309-315 | the lock of a shifted piece that fills no row spawns the next piece with the incremented count |
| GameProperties.LockWithoutLines | game.js:309-316 | a lock that fills no row keeps score and lock count and spawns the next piece; play goes on exactly when it fits |
| GameProperties.SingleRowClear | game.js:296-300 | one flashing row r: the new board is an empty row, old rows 0..r-1, then old rows r+1..19 |
| GameProperties.BottomTwoRowsClear | game.js:295-300 | when rows 18 and 19 clear together, old row 17 is lost and old row 18 stays, full, at the bottom |
| GameProperties.IPieceRows | game.js:247-265 | the I piece at column 3 fits the empty board exactly in rows 0 to 19 |
| GameProperties.IPieceDropsToBottom | game.js:175-178 | the I piece dropped from row 0 at column 3 of the empty board stops in row 19 |
| GameProperties.IPieceInBottomRow | game.js:271-288 | the I piece locked in row 19 at column 3 of the empty board fills columns 3 to 6 of that row with 1 and completes no row |
| GameProperties.DropIOnEmptyBoard | game.js:175-181 | a hard drop of the I piece spawned on the empty board locks in row 19, fills columns 3 to 6 and scores nothing |
| GameProperties.NameTyping | game.js:231-233 | a letter or digit is appended in upper case while the name is shorter than four and ignored at four |
| GameProperties.NameBackspace | game.js:225-230 | Backspace removes the last character, if any, and changes nothing else |
| GameProperties.NameOfFourThenBackspace | game.js:224-238 | typing five characters keeps the first four in upper case; a backspace then leaves three |
| GameProperties.NameEnterRecordsScore | game.js:234-236 | Enter with a name inserts the padded name with the score at its rank, drops the old tenth entry and shows the highscore list |
| GameProperties.NameOtherKeysIgnored | game.js:224-238 | Enter with an empty name and every other non-name key do nothing |
| GameProperties.PlayNeverLowersScore | game.js:289-291 | during a game no key or timer event lowers the score |

## Left out

- Rendering, canvas layout, the title animation and every `draw*`, `render`, `console.log` and `e.preventDefault` call (game.js:37-46, 69-95, 122-126, 328-342): presentation only.
- `localStorage` and `JSON` in storage.js (lines 7-9 and 16-18): the table is an in-memory value; loading a stored table and `saveHighscores` are not modelled.
- `getHighscores` (storage.js:31-33): it only returns the table, which is the session's `table` field.
- The uniformity of `Math.random`: the shuffle is a function of arbitrary admissible swap indices, and only properties that hold for every choice are proved.
- The catalog colours are carried in `PieceDef` but nothing reads them.
- `setTimeout`/`clearTimeout` and the 120-unit delay (game.js:293-294): the timer is the `FlashOver` event. Keys are ignored while rows flash, so a second lock cannot schedule a second clear, and cancelling a pending one never matters.
- `spawnTetromino`'s fallback `next !== undefined ? next : nextTetromino()` (game.js:115) and `if (!current) return;` (game.js:139): `next` and `current` are always set once a game has started, so both are left out.
- JavaScript numbers are doubles. Scores are unbounded integers here, and no score reachable in play comes near 2^53.
- `e.key.length === 1` counts UTF-16 code units; here a key is a Dafny string of characters. Only single ASCII letters and digits are accepted either way.
- Game.Step: the invariant it keeps (`Game.Inv`) says only that both pieces have solid shapes, that is, rectangular matrices with an occupied cell. The stronger facts are stated per operation rather than carried through every step: the next piece is a catalog shape (`Game.Spawn`, `Tetromino.NextTetromino`), and the current piece is one of its kind's four orientations (`Game.TurnRight`, `Game.TurnLeft`, `Tetromino.RotateKeepsOriented`).
- Game.Step: the invariant does not bound `lockMoves` by the lock delay of 2, because the code does not keep that bound. What it keeps is that `lockMoves >= 2` only for a piece still in its spawn row with `moveCount` 0 (see `GameProperties.LockCountCarriesOver`).
- Game.Settle: its contract states only that it keeps the invariant and the table and does not lower the score. Its effect after each kind of move is stated through `Game.AfterMove` by the lemmas listed on the next line.
- Game.AfterMove: its contract states only that it keeps the invariant and the table and does not lower the score. Its exact result is stated case by case. The cases cover every input that `Game.Shift`, `Game.TurnTo` and `Game.SoftDrop` pass. The one admissible input they leave out is a manual step down from a resting piece, and no caller passes it, because `Game.SoftDrop` locks a resting piece instead (`GameProperties.SoftDropSteps`, `GameProperties.DownLocks`):
  - a manual step down: `GameProperties.DownSettles`;
  - a first move that ends in the air: `GameProperties.FirstMoveSettles`;
  - a second move that ends in the air, from a piece that was not resting: `GameProperties.SecondMoveSettles`;
  - the same, from a piece that was resting: `GameProperties.SecondMoveOffLedge`;
  - any move that ends resting: `GameProperties.RestingMoveSettles`.
- Game.Shift: its contract states only that it keeps the invariant and the table and does not lower the score. `GameProperties.BlockedShiftIgnored` states the illegal case, and `GameProperties.ShiftSteps` reduces the legal case to `Game.AfterMove`.
- Game.SoftDrop: its contract states only that it keeps the invariant and the table and does not lower the score. Its exact result is `GameProperties.DownMoves` for a legal step and `GameProperties.DownLocks` otherwise.
- Game.TurnTo: its contract states only that it keeps the invariant and the table and does not lower the score. `GameProperties.BlockedTurnIgnored` states the illegal case, and `GameProperties.TurnSteps` reduces the legal case to `Game.AfterMove`.
- Game.HardDrop: its contract states only that it keeps the invariant and the table and does not lower the score. `GameProperties.HardDropLands` states the landing row, the rows passed through, and the lock.
- Game.PlayKey: its contract states only that it keeps the invariant and the table and does not lower the score. `GameProperties.KeyDispatch` states which of the handlers above each key reaches.

## Behaviour of game.js worth knowing

- **Row removal.** The callback (game.js:295-300) sorts the full rows in descending
  order, then alternates `splice(row, 1)` with `unshift(emptyRow)`. Each `unshift` moves
  the remaining rows down one index, so the k-th removal deletes old row `lines[k] - k`.
  For example, clearing rows 18 and 19 deletes old rows 19 and 17 and leaves the full
  old row 18 at the bottom. The model keeps this removal loop as it is
  (`Board.ClearRowsAsWritten`) and states its effect in `Board.ClearTwoRowsAsWritten`
  and `GameProperties.BottomTwoRowsClear`. Single-row clears remove exactly the full row
  (`GameProperties.SingleRowClear`).
- **The lock count carries over.** `lockMoves` is reset by `startGame` (game.js:103),
  by a move that brings a piece to rest, and by every move that ends in the air
  (game.js:198-215). A move that keeps a resting piece resting increments it. It is never
  reset in `spawnTetromino` (game.js:114-120). A piece locked by the lock
  delay therefore hands `lockMoves == 2` to the next piece
  (`GameProperties.LockCountCarriesOver`). If that piece is already resting where it
  spawns, its first move that leaves it resting locks it.
- **A second move off a ledge.** When the second move in a row slides a resting piece
  into open air, the automatic drop pulls it down one row (game.js:190-191). The lock
  delay then sees a piece that was resting and is no longer, and moves it down a second
  row (game.js:208-210). If it rests again after the first row, its lock count goes up by
  one instead of restarting at 0 (`GameProperties.SecondMoveOffLedge`,
  `GameProperties.SecondShiftOffLedgeDropsTwo`).
- **A new game always starts with a fitting piece.** `startGame` (game.js:97-108) clears
  the board, deals `next` and `current` from a fresh bag and spawns on the empty board,
  where every piece fits (`Game.StartGame`, `Game.SpawnFitsEmptyBoard`).
- **Sorting.** `Array.prototype.sort` is stable. The model uses a stable insertion sort
  with the same comparison, descending by score, and proves its stability
  (`Storage.SortByScoreStable`). Ties keep the older entry first.
- **Redundant code.** After a piece slides off a ledge, the code sets `lockMoves` to 0
  twice (game.js:211-215). The model sets it once.
- **Title keys.** `e.key.toLowerCase() === 'h'` holds exactly for the keys `h` and `H`.
- **The lock delay** is set to 2 in `startGame` and never changed, so it is the
  constant `Game.LockDelay`.
- **Phase order.** The phases keep the order of the state constants 0 to 4 (game.js:6-10).
- **Initial placeholders.** Before the first game, the session holds an empty board and
  placeholder pieces. `startGame` replaces all of them before any of them is read.

=== FILE: board.dfy ===
/** The 10 x 20 playfield of `game.js`: collision test, piece placement, full-row
    detection and row removal. A cell holds 0 when empty and `kind + 1` when filled. */
module Board {

  const Cols := 10
  const Rows := 20

  type Grid = seq<seq<int>>

  /** Twenty rows of ten cells. */
  predicate IsBoard(b: Grid)
  {
    |b| == Rows && forall r :: 0 <= r < |b| ==> |b[r]| == Cols
  }

  /** `Array(COLS).fill(0)`. */
  function EmptyRow(): (row: seq<int>)
    ensures |row| == Cols && forall c :: 0 <= c < Cols ==> row[c] == 0
  {
    seq(Cols, _ => 0)
  }

  /** `resetBoard`: every cell empty. */
  function EmptyBoard(): (b: Grid)
    ensures IsBoard(b)
    ensures forall r, c :: 0 <= r < Rows && 0 <= c < Cols ==> b[r][c] == 0
  {
    seq(Rows, _ => EmptyRow())
  }

  /** The board cell at column `bc`, row `br` is off the board or already filled. */
  predicate Blocked(b: Grid, bc: int, br: int)
    requires IsBoard(b)
  {
    bc < 0 || bc >= Cols || br < 0 || br >= Rows || b[br][bc] != 0
  }

  /** Reference definition of a legal position: no occupied cell of the shape, placed
      with its top-left corner at column `x`, row `y`, lands on a blocked board cell. */
  ghost predicate Fits(b: Grid, shape: seq<seq<int>>, x: int, y: int)
    requires IsBoard(b)
  {
    forall r, c :: 0 <= r < |shape| && 0 <= c < |shape[r]| && shape[r][c] != 0 ==>
      !Blocked(b, x + c, y + r)
  }

  // ---------------------------------------------------------------------------
  // isValidPosition: the cell-by-cell scan
  // ---------------------------------------------------------------------------

  /** Scan one shape row from column `col`, placed on board row `br`. */
  function RowFits(b: Grid, row: seq<int>, x: int, br: int, col: nat): bool
    requires IsBoard(b)
    decreases |row| - col
  {
    if col >= |row| then true
    else if row[col] != 0 && Blocked(b, x + col, br) then false
    else RowFits(b, row, x, br, col + 1)
  }

  /** Scan the shape's rows from row `r`. */
  function RowsFit(b: Grid, shape: seq<seq<int>>, x: int, y: int, r: nat): bool
    requires IsBoard(b)
    decreases |shape| - r
  {
    if r >= |shape| then true
    else if !RowFits(b, shape[r], x, y + r, 0) then false
    else RowsFit(b, shape, x, y, r + 1)
  }

  /** The row scan succeeds exactly when no occupied cell from column `col` on is blocked. */
  lemma {:induction false} RowFitsIff(b: Grid, row: seq<int>, x: int, br: int, col: nat)
    requires IsBoard(b)
    ensures RowFits(b, row, x, br, col) <==>
              forall c :: col <= c < |row| && row[c] != 0 ==> !Blocked(b, x + c, br)
    decreases |row| - col
  {
    if col < |row| {
      RowFitsIff(b, row, x, br, col + 1);
    }
  }

  /** The shape scan succeeds exactly when no occupied cell from shape row `r` on is
      blocked. */
  lemma {:induction false} RowsFitIff(b: Grid, shape: seq<seq<int>>, x: int, y: int, r: nat)
    requires IsBoard(b)
    ensures RowsFit(b, shape, x, y, r) <==>
              forall i, c :: r <= i < |shape| && 0 <= c < |shape[i]| && shape[i][c] != 0 ==>
                !Blocked(b, x + c, y + i)
    decreases |shape| - r
  {
    if r < |shape| {
      RowFitsIff(b, shape[r], x, y + r, 0);
      RowsFitIff(b, shape, x, y, r + 1);
    }
  }

  /** `isValidPosition`: the scan returns false at the first occupied shape cell that is
      off the board or on a filled cell. */
  function IsValidPosition(b: Grid, shape: seq<seq<int>>, x: int, y: int): (ok: bool)
    requires IsBoard(b)
  {
    RowsFit(b, shape, x, y, 0)
  }

  /** The scan agrees with the reference definition. */
  lemma ValidIffFits(b: Grid, shape: seq<seq<int>>, x: int, y: int)
    requires IsBoard(b)
    ensures IsValidPosition(b, shape, x, y) <==> Fits(b, shape, x, y)
  {
    RowsFitIff(b, shape, x, y, 0);
  }

  /** `isTouchingBottom`: the piece cannot move one row down. */
  function TouchingBottom(b: Grid, shape: seq<seq<int>>, x: int, y: int): bool
    requires IsBoard(b)
  {
    !IsValidPosition(b, shape, x, y + 1)
  }

  /** A shape with an occupied cell only fits above the floor. */
  lemma FitsAboveFloor(b: Grid, shape: seq<seq<int>>, x: int, y: int, r: int, c: int)
    requires IsBoard(b)
    requires 0 <= r < |shape| && 0 <= c < |shape[r]| && shape[r][c] != 0
    requires IsValidPosition(b, shape, x, y)
    ensures 0 <= y + r < Rows && 0 <= x + c < Cols
  {
    ValidIffFits(b, shape, x, y);
  }

  // ---------------------------------------------------------------------------
  // placeTetromino: writing the piece into the board
  // ---------------------------------------------------------------------------

  /** Shape cell (row - y, col - x) is occupied. */
  predicate Covers(shape: seq<seq<int>>, x: int, y: int, row: int, col: int)
  {
    0 <= row - y < |shape| && 0 <= col - x < |shape[row - y]| && shape[row - y][col - x] != 0
  }

  /** Every occupied cell of the shape lies on the board. */
  ghost predicate OnBoard(shape: seq<seq<int>>, x: int, y: int)
  {
    forall r, c :: 0 <= r < |shape| && 0 <= c < |shape[r]| && shape[r][c] != 0 ==>
      0 <= x + c < Cols && 0 <= y + r < Rows
  }

  function SetCell(b: Grid, bc: int, br: int, v: int): (b': Grid)
    requires IsBoard(b) && 0 <= bc < Cols && 0 <= br < Rows
    ensures IsBoard(b')
  {
    b[br := b[br][bc := v]]
  }

  /** Write `v` into the cells covered by one shape row, from column `col` on. */
  function PlaceRow(b: Grid, row: seq<int>, x: int, br: int, v: int, col: nat): (b': Grid)
    requires IsBoard(b)
    requires forall c :: col <= c < |row| && row[c] != 0 ==> 0 <= x + c < Cols && 0 <= br < Rows
    ensures IsBoard(b')
    decreases |row| - col
  {
    if col >= |row| then b
    else if row[col] != 0 then PlaceRow(SetCell(b, x + col, br, v), row, x, br, v, col + 1)
    else PlaceRow(b, row, x, br, v, col + 1)
  }

  /** Writing one shape row sets exactly the covered cells of board row `br`. */
  lemma {:induction false} PlaceRowCells(b: Grid, row: seq<int>, x: int, br: int, v: int, col: nat)
    requires IsBoard(b)
    requires forall c :: col <= c < |row| && row[c] != 0 ==> 0 <= x + c < Cols && 0 <= br < Rows
    ensures forall i, j {:trigger PlaceRow(b, row, x, br, v, col)[i][j]} :: 0 <= i < Rows && 0 <= j < Cols ==>
              PlaceRow(b, row, x, br, v, col)[i][j] == if i == br && col <= j - x < |row| && row[j - x] != 0 then v else b[i][j]
    decreases |row| - col
  {
    if col < |row| {
      if row[col] != 0 {
        PlaceRowCells(SetCell(b, x + col, br, v), row, x, br, v, col + 1);
      } else {
        PlaceRowCells(b, row, x, br, v, col + 1);
      }
    }
  }

  /** Write `v` into the cells covered by the shape's rows from row `r` on. */
  function PlaceRows(b: Grid, shape: seq<seq<int>>, x: int, y: int, v: int, r: nat): (b': Grid)
    requires IsBoard(b) && OnBoard(shape, x, y)
    ensures IsBoard(b')
    decreases |shape| - r
  {
    if r >= |shape| then b
    else PlaceRows(PlaceRow(b, shape[r], x, y + r, v, 0), shape, x, y, v, r + 1)
  }

  /** Writing the shape's rows from row `r` on sets exactly their covered cells. */
  lemma {:induction false} PlaceRowsCells(b: Grid, shape: seq<seq<int>>, x: int, y: int, v: int, r: nat)
    requires IsBoard(b) && OnBoard(shape, x, y)
    ensures forall i, j {:trigger PlaceRows(b, shape, x, y, v, r)[i][j]} :: 0 <= i < Rows && 0 <= j < Cols ==>
              PlaceRows(b, shape, x, y, v, r)[i][j] == if r <= i - y && Covers(shape, x, y, i, j) then v else b[i][j]
    decreases |shape| - r
  {
    if r < |shape| {
      var b1 := PlaceRow(b, shape[r], x, y + r, v, 0);
      PlaceRowCells(b, shape[r], x, y + r, v, 0);
      PlaceRowsCells(b1, shape, x, y, v, r + 1);
      var b' := PlaceRows(b, shape, x, y, v, r);
      assert b' == PlaceRows(b1, shape, x, y, v, r + 1);
      forall i, j | 0 <= i < Rows && 0 <= j < Cols
        ensures b'[i][j] == if r <= i - y && Covers(shape, x, y, i, j) then v else b[i][j]
      {
        assert b'[i][j] == if r + 1 <= i - y && Covers(shape, x, y, i, j) then v else b1[i][j];
      }
    }
  }

  /** `placeTetromino`: write `v` into every cell the shape covers at (x, y). */
  function Place(b: Grid, shape: seq<seq<int>>, x: int, y: int, v: int): (b': Grid)
    requires IsBoard(b) && OnBoard(shape, x, y)
    ensures IsBoard(b')
  {
    PlaceRows(b, shape, x, y, v, 0)
  }

  /** The cells the shape covers at (x, y) hold `v` afterwards; every other cell is unchanged. */
  lemma PlaceCells(b: Grid, shape: seq<seq<int>>, x: int, y: int, v: int)
    requires IsBoard(b) && OnBoard(shape, x, y)
    ensures forall i, j {:trigger Place(b, shape, x, y, v)[i][j]} :: 0 <= i < Rows && 0 <= j < Cols ==>
              Place(b, shape, x, y, v)[i][j] == if Covers(shape, x, y, i, j) then v else b[i][j]
  {
    PlaceRowsCells(b, shape, x, y, v, 0);
    var b' := Place(b, shape, x, y, v);
    forall i, j | 0 <= i < Rows && 0 <= j < Cols
      ensures b'[i][j] == if Covers(shape, x, y, i, j) then v else b[i][j]
    {
      assert b'[i][j] == if 0 <= i - y && Covers(shape, x, y, i, j) then v else b[i][j];
    }
  }

  /** A legal position lies on the board. */
  lemma ValidIsOnBoard(b: Grid, shape: seq<seq<int>>, x: int, y: int)
    requires IsBoard(b) && IsValidPosition(b, shape, x, y)
    ensures OnBoard(shape, x, y)
  {
    ValidIffFits(b, shape, x, y);
  }

  // ---------------------------------------------------------------------------
  // checkLineClear: full rows and score
  // ---------------------------------------------------------------------------

  /** Every cell of the row is filled. */
  predicate IsFull(row: seq<int>)
  {
    forall c :: 0 <= c < |row| ==> row[c] != 0
  }

  /** Ascending without repeats. */
  predicate StrictlyIncreasing(s: seq<int>)
  {
    forall i, j :: 0 <= i < j < |s| ==> s[i] < s[j]
  }

  /** The full rows from row `y` down, in ascending order. */
  function FullRowsFrom(b: Grid, y: nat): (rows: seq<int>)
    requires IsBoard(b) && y <= Rows
    decreases Rows - y
  {
    if y == Rows then []
    else if IsFull(b[y]) then [y] + FullRowsFrom(b, y + 1)
    else FullRowsFrom(b, y + 1)
  }

  /** The scan from row `y` lists, in ascending order, exactly the full rows from `y` down. */
  lemma {:induction false} FullRowsFromFacts(b: Grid, y: nat)
    requires IsBoard(b) && y <= Rows
    ensures var rows := FullRowsFrom(b, y);
      StrictlyIncreasing(rows)
      && (forall k :: 0 <= k < |rows| ==> y <= rows[k] < Rows && IsFull(b[rows[k]]))
      && (forall r :: y <= r < Rows && IsFull(b[r]) ==> r in rows)
    decreases Rows - y
  {
    if y < Rows {
      FullRowsFromFacts(b, y + 1);
      var rest := FullRowsFrom(b, y + 1);
      var rows := FullRowsFrom(b, y);
      if IsFull(b[y]) {
        assert rows == [y] + rest;
        assert forall k :: 1 <= k < |rows| ==> rows[k] == rest[k - 1];
      } else {
        assert rows == rest;
      }
    }
  }

  /** All full rows of the board, in ascending order. */
  function FullRows(b: Grid): (rows: seq<int>)
    requires IsBoard(b)
  {
    FullRowsFrom(b, 0)
  }

  /** The full rows, ascending: a row is listed exactly when it is full. */
  lemma FullRowsFacts(b: Grid)
    requires IsBoard(b)
    ensures StrictlyIncreasing(FullRows(b))
    ensures forall k :: 0 <= k < |FullRows(b)| ==> 0 <= FullRows(b)[k] < Rows && IsFull(b[FullRows(b)[k]])
    ensures forall r :: r in FullRows(b) <==> 0 <= r < Rows && IsFull(b[r])
  {
    FullRowsFromFacts(b, 0);
  }

  /** The scan from row `y` finds nothing when no row from `y` down is full. */
  lemma {:induction false} NoFullRowsFrom(b: Grid, y: nat)
    requires IsBoard(b) && y <= Rows
    requires forall r :: y <= r < Rows ==> !IsFull(b[r])
    ensures FullRowsFrom(b, y) == []
    decreases Rows - y
  {
    if y < Rows {
      NoFullRowsFrom(b, y + 1);
    }
  }

  /** No full rows are listed exactly when no row is full. */
  lemma NoFullRows(b: Grid)
    requires IsBoard(b)
    ensures FullRows(b) == [] <==> forall r :: 0 <= r < Rows ==> !IsFull(b[r])
  {
    if forall r :: 0 <= r < Rows ==> !IsFull(b[r]) {
      NoFullRowsFrom(b, 0);
    } else {
      FullRowsFacts(b);
    }
  }

  /** Points for clearing `n` rows at once: `[0, 100, 300, 500, 800][n] || 0`. */
  function LineScore(n: int): (points: int)
    ensures points >= 0
    ensures points > 0 <==> 1 <= n <= 4
    ensures forall m :: 1 <= m < n <= 4 ==> LineScore(m) < points
  {
    if n == 1 then 100
    else if n == 2 then 300
    else if n == 3 then 500
    else if n == 4 then 800
    else 0
  }

  // ---------------------------------------------------------------------------
  // Row removal, exactly as the deferred callback performs it
  // ---------------------------------------------------------------------------

  /** `board.splice(i, 1)`: remove row `i`. */
  function RemoveRow(b: Grid, i: int): (r: Grid)
    requires 0 <= i < |b|
    ensures |r| == |b| - 1
  {
    b[..i] + b[i + 1..]
  }

  /** For each index in `lines` in turn: remove that row, then push an empty row on top.
      The indices are not adjusted for the rows already pushed. */
  function ClearRowsAsWritten(b: Grid, lines: seq<int>): (r: Grid)
    requires IsBoard(b)
    requires forall k :: 0 <= k < |lines| ==> 0 <= lines[k] < Rows
    ensures IsBoard(r)
    decreases |lines|
  {
    if lines == [] then b
    else
      var b' := [EmptyRow()] + RemoveRow(b, lines[0]);
      assert forall r :: 1 <= r < Rows ==> b'[r] == b[r - 1] || b'[r] == b[r];
      ClearRowsAsWritten(b', lines[1..])
  }

  /** Clearing a single row drops it and shifts the rows above it down by one. */
  lemma ClearOneRow(b: Grid, row: int)
    requires IsBoard(b) && 0 <= row < Rows
    ensures ClearRowsAsWritten(b, [row]) == [EmptyRow()] + b[..row] + b[row + 1..]
  {
    assert [row][1..] == [];
  }

  /** Two rows `hi > lo`, taken in descending order: the second removal hits the row
      above `lo`, because the first pushed an empty row on top. Old row `lo - 1` is
      lost and old row `lo` survives. */
  lemma ClearTwoRowsAsWritten(b: Grid, hi: int, lo: int)
    requires IsBoard(b) && 1 <= lo < hi < Rows
    ensures ClearRowsAsWritten(b, [hi, lo])
         == [EmptyRow(), EmptyRow()] + b[..lo - 1] + b[lo..hi] + b[hi + 1..]
  {
    var b1 := [EmptyRow()] + RemoveRow(b, hi);
    assert ClearRowsAsWritten(b, [hi, lo]) == ClearRowsAsWritten(b1, [lo]);
    ClearOneRow(b1, lo);
    assert b1[..lo] == [EmptyRow()] + b[..lo - 1];
    assert b1[lo + 1..] == b[lo..hi] + b[hi + 1..];
  }

  /** Counterexample: when the two bottom rows are full, the bottom row is still full
      after the removal, because old row 17 was deleted in place of old row 18. */
  lemma BottomTwoRowsClearLeavesFullRow(b: Grid)
    requires IsBoard(b) && IsFull(b[18]) && IsFull(b[19])
    ensures IsFull(ClearRowsAsWritten(b, [19, 18])[19])
    ensures ClearRowsAsWritten(b, [19, 18])[19] == b[18]
    ensures 19 in FullRows(ClearRowsAsWritten(b, [19, 18]))
  {
    ClearTwoRowsAsWritten(b, 19, 18);
    var r := ClearRowsAsWritten(b, [19, 18]);
    assert r[19] == b[18];
    FullRowsFacts(r);
  }
}

=== FILE: game.dfy ===
/** The game-state machine of `game.js`: phases, the play session, one key press at a
    time, and the deferred line clear that follows a lock. */
module Game {
  import opened SeqUtil
  import opened Tetromino
  import opened Storage
  import opened Board

  /** The five screens; `game.js` numbers them 0 to 4 in this order. */
  datatype Phase = Title | Play | GameOver | Highscores | NameEntry

  /** Moves the piece may make while resting before it locks. */
  const LockDelay := 2

  /** Longest player name. */
  const NameLength := 4

  /** Everything `game.js` keeps in module variables, plus the highscore table and the
      remaining bag. `flash` holds the cleared rows while the flash effect lasts; the
      empty sequence stands for `null`. */
  datatype Session = Session(
    phase: Phase,
    board: Grid,
    current: Piece,
    next: Piece,
    x: int,
    y: int,
    moveCount: int,
    lockMoves: int,
    score: int,
    flash: seq<int>,
    name: string,
    table: seq<Entry>,
    bag: seq<Kind>)

  // ---------------------------------------------------------------------------
  // Invariant
  // ---------------------------------------------------------------------------

  predicate IsNameChar(c: char)
  {
    'A' <= c <= 'Z' || '0' <= c <= '9'
  }

  /** At most four upper-case letters and digits. */
  predicate IsName(name: string)
  {
    |name| <= NameLength && forall i :: 0 <= i < |name| ==> IsNameChar(name[i])
  }

  /** The flashing rows are full rows of the board, in ascending order. */
  predicate FlashRows(b: Grid, rows: seq<int>)
    requires IsBoard(b)
  {
    StrictlyIncreasing(rows) && forall k :: 0 <= k < |rows| ==> 0 <= rows[k] < Rows && IsFull(b[rows[k]])
  }

  /** Facts that hold in every phase. */
  predicate WellFormed(s: Session)
  {
    IsBoard(s.board)
    && IsSolid(s.current.shape)
    && IsSolid(s.next.shape)
    && |s.table| == HighscoreSize && SortedByScore(s.table)
    && IsName(s.name)
    && s.lockMoves >= 0
    && FlashRows(s.board, s.flash)
    && (s.flash != [] ==> s.phase == Play)
    && (s.phase == NameEntry ==> CheckHighscore(s.table, s.score))
  }

  /** Between two key presses of a running game the falling piece sits at a legal
      position and has made at most one move since its last drop. `lockMoves` is not
      bounded by `LockDelay`: a piece that locked through the lock delay leaves the
      counter at 2 or more for the next piece, which still stands in its spawn row. */
  predicate Turn(s: Session)
    requires IsBoard(s.board)
  {
    IsValidPosition(s.board, s.current.shape, s.x, s.y)
    && (s.moveCount == 0 || s.moveCount == 1)
    && (s.lockMoves >= LockDelay ==> s.y == 0 && s.moveCount == 0)
  }

  predicate Inv(s: Session)
  {
    WellFormed(s) && (s.phase == Play && s.flash == [] ==> Turn(s))
  }

  // ---------------------------------------------------------------------------
  // Spawning, starting and ending a game
  // ---------------------------------------------------------------------------

  /** Spawn column: `floor(COLS / 2) - ceil(width / 2)`. */
  function SpawnX(shape: Shape): (x: int)
    requires |shape| > 0
    ensures 0 <= Width(shape) <= 4 ==> 3 <= x <= 5 && x + Width(shape) <= Cols
    ensures x + x + Width(shape) == Cols || x + x + Width(shape) == Cols - 1
  {
    Cols / 2 - (Width(shape) + 1) / 2
  }

  /** `spawnTetromino`: the next piece becomes the current one at the spawn column of
      the top row, and a new next piece is drawn. */
  function Spawn(s: Session, js: Swaps): (r: Session)
    requires IsMatrix(s.next.shape)
    ensures r.current == s.next && r.x == SpawnX(s.next.shape) && r.y == 0 && r.moveCount == 0
    ensures r.next.shape == CatalogShape(r.next.kind)
    ensures r == s.(current := r.current, next := r.next, bag := r.bag, x := r.x, y := r.y, moveCount := 0)
  {
    var d := NextTetromino(s.bag, js);
    s.(current := s.next, next := d.piece, bag := d.bag, x := SpawnX(s.next.shape), y := 0, moveCount := 0)
  }

  /** The new next piece is the last kind of the bag, refilled first when it is empty. */
  lemma SpawnDraws(s: Session, js: Swaps)
    requires IsMatrix(s.next.shape)
    ensures var r := Spawn(s, js);
      r.bag + [r.next.kind] == if s.bag == [] then NewBag(js) else s.bag
  {
  }

  /** `startGame`: empty board, a fresh bag, score and counters zero, no flash, then spawn. */
  function StartGame(s: Session, js: Swaps): (r: Session)
    requires s.phase == Play && WellFormed(s.(flash := []))
    ensures Inv(r) && r.phase == Play
    ensures r.board == EmptyBoard() && r.score == 0 && r.flash == []
    ensures r.x == SpawnX(r.current.shape) && r.y == 0 && r.moveCount == 0 && r.lockMoves == 0
    ensures r.current.shape == CatalogShape(r.current.kind)
    ensures r.next.shape == CatalogShape(r.next.kind)
    ensures r.bag + [r.next.kind, r.current.kind] == NewBag(js)
    ensures r.name == s.name && r.table == s.table
  {
    var bag := NewBag(js);
    var first := NextTetromino(bag, js);
    var s1 := s.(board := EmptyBoard(), bag := first.bag, next := first.piece, score := 0,
                 moveCount := 0, lockMoves := 0, flash := []);
    CatalogShapeFacts(first.piece.kind);
    var r := Spawn(s1, js);
    assert first.bag + [first.piece.kind] == bag;
    SpawnDraws(s1, js);
    assert r.current == first.piece && r.bag + [r.next.kind] == first.bag;
    assert r.bag + [r.next.kind, r.current.kind] == (r.bag + [r.next.kind]) + [first.piece.kind];
    CatalogShapeSolid(r.current.kind);
    CatalogShapeSolid(r.next.kind);
    SpawnFitsEmptyBoard(r.current.kind);
    r
  }

  /** Every catalog shape fits the empty board at its spawn position. */
  lemma SpawnFitsEmptyBoard(k: Kind)
    ensures IsValidPosition(EmptyBoard(), CatalogShape(k), SpawnX(CatalogShape(k)), 0)
  {
    CatalogShapeFacts(k);
  }

  /** `setGameState`: entering the current phase does nothing; entering Play starts a
      new game. */
  function SetPhase(s: Session, p: Phase, js: Swaps): (r: Session)
    requires WellFormed(s.(phase := p)) && s.flash == []
    requires s.phase == Play && p == Play ==> Turn(s)
    ensures Inv(r) && r.phase == p && r.table == s.table && r.name == s.name
    ensures s.phase == p ==> r == s
    ensures s.phase != p && p == Play ==> r.board == EmptyBoard() && r.score == 0
    ensures p != Play ==> r.board == s.board && r.score == s.score
    ensures s.phase != p && p != Play ==> r == s.(phase := p)
  {
    if s.phase == p then s
    else if p == Play then StartGame(s.(phase := Play), js)
    else s.(phase := p)
  }

  /** `endGameWithHighscore`: a score that beats the tenth entry goes to name entry with
      an empty name; any other score goes to the game-over screen. */
  function EndGame(s: Session): (r: Session)
    requires WellFormed(s) && s.flash == [] && s.phase == Play
    ensures Inv(r) && r.board == s.board && r.score == s.score && r.table == s.table
    ensures CheckHighscore(s.table, s.score) ==> r.phase == NameEntry && r.name == ""
    ensures !CheckHighscore(s.table, s.score) ==> r.phase == GameOver
    ensures r == s.(phase := r.phase, name := r.name)
  {
    if CheckHighscore(s.table, s.score) then s.(name := "", phase := NameEntry)
    else s.(phase := GameOver)
  }

  /** Ending the game is `setGameState` on the chosen screen: leaving Play for another
      phase changes nothing but the phase. */
  lemma EndGameSetsPhase(s: Session, js: Swaps)
    requires WellFormed(s) && s.flash == [] && s.phase == Play
    ensures CheckHighscore(s.table, s.score) ==> EndGame(s) == SetPhase(s.(name := ""), NameEntry, js)
    ensures !CheckHighscore(s.table, s.score) ==> EndGame(s) == SetPhase(s, GameOver, js)
  {
  }

  /** Spawn the next piece; if it does not fit, the game ends. */
  function SpawnAndCheck(s: Session, js: Swaps): (r: Session)
    requires WellFormed(s) && s.flash == [] && s.phase == Play
    ensures Inv(r) && r.board == s.board && r.score == s.score && r.flash == [] && r.table == s.table
    ensures r.lockMoves == s.lockMoves
    ensures r.current == s.next && r.x == SpawnX(s.next.shape) && r.y == 0 && r.moveCount == 0
    ensures r.phase == Play <==> IsValidPosition(s.board, s.next.shape, SpawnX(s.next.shape), 0)
    ensures r.phase != Play ==>
              if CheckHighscore(s.table, s.score) then r.phase == NameEntry && r.name == ""
              else r.phase == GameOver
    ensures r == Spawn(s, js).(phase := r.phase, name := r.name)
  {
    var s1 := Spawn(s, js);
    CatalogShapeSolid(s1.next.kind);
    if IsValidPosition(s1.board, s1.current.shape, s1.x, s1.y) then
      assert s1.lockMoves >= LockDelay ==> s1.y == 0 && s1.moveCount == 0;
      s1
    else EndGame(s1)
  }

  // ---------------------------------------------------------------------------
  // Locking and clearing rows
  // ---------------------------------------------------------------------------

  /** `placeTetromino`: the board with piece `p` written in at (x, y) as `kind + 1`. */
  function Landed(b: Grid, p: Piece, x: int, y: int): (b': Grid)
    requires IsBoard(b) && IsValidPosition(b, p.shape, x, y)
    ensures IsBoard(b')
  {
    ValidIsOnBoard(b, p.shape, x, y);
    Place(b, p.shape, x, y, p.kind + 1)
  }

  /** `placeTetromino` followed by `checkLineClear`: full rows start the flash and score
      at once; otherwise the next piece spawns. */
  function Lock(s: Session, js: Swaps): (r: Session)
    requires WellFormed(s) && s.flash == [] && s.phase == Play
    requires IsValidPosition(s.board, s.current.shape, s.x, s.y)
    ensures Inv(r) && r.table == s.table
    ensures r.board == Landed(s.board, s.current, s.x, s.y)
    ensures r.flash == FullRows(r.board)
    ensures r.score == s.score + LineScore(|r.flash|)
    ensures r.flash != [] ==> r.phase == Play && r.current == s.current
    ensures r.flash != [] ==> r == s.(board := r.board, flash := r.flash, score := r.score)
    ensures r.flash == [] ==> r == SpawnAndCheck(s.(board := r.board), js)
  {
    var b := Landed(s.board, s.current, s.x, s.y);
    var lines := FullRows(b);
    FullRowsFacts(b);
    if |lines| > 0 then
      s.(board := b, flash := lines, score := s.score + LineScore(|lines|))
    else
      assert FlashRows(b, []);
      SpawnAndCheck(s.(board := b), js)
  }

  /** The deferred line clear: the flashing rows are removed in descending order, exactly
      as `checkLineClear`'s timeout does it, the flash ends and the next piece spawns. */
  function ResolveFlash(s: Session, js: Swaps): (r: Session)
    requires Inv(s) && s.phase == Play && s.flash != []
    ensures Inv(r) && r.flash == [] && r.score == s.score && r.table == s.table
    ensures r.board == ClearRowsAsWritten(s.board, Reverse(s.flash))
    ensures r.current == s.next && r.x == SpawnX(s.next.shape) && r.y == 0 && r.moveCount == 0
    ensures r.phase == Play <==> IsValidPosition(r.board, s.next.shape, SpawnX(s.next.shape), 0)
    ensures r.phase != Play ==>
              if CheckHighscore(s.table, s.score) then r.phase == NameEntry && r.name == ""
              else r.phase == GameOver
    ensures r == Spawn(s.(board := r.board, flash := []), js).(phase := r.phase, name := r.name)
  {
    var b := ClearRowsAsWritten(s.board, Reverse(s.flash));
    assert FlashRows(b, []);
    SpawnAndCheck(s.(board := b, flash := []), js)
  }

  // ---------------------------------------------------------------------------
  // Play: one key press
  // ---------------------------------------------------------------------------

  /** A piece with an occupied cell at a legal position is above the floor. */
  lemma ValidAboveFloor(b: Grid, p: Piece, x: int, y: int)
    requires IsBoard(b) && IsSolid(p.shape) && IsValidPosition(b, p.shape, x, y)
    ensures y < Rows
  {
    var cell :| cell in Cells(p.shape);
    FitsAboveFloor(b, p.shape, x, y, cell.0, cell.1);
  }

  /** The hard-drop row: the piece falls from row `y` while the row below is legal. */
  function DropRow(b: Grid, p: Piece, x: int, y: int): (r: int)
    requires IsBoard(b) && IsSolid(p.shape) && IsValidPosition(b, p.shape, x, y)
    ensures r >= y && IsValidPosition(b, p.shape, x, r)
    ensures !IsValidPosition(b, p.shape, x, r + 1)
    ensures forall k :: y <= k <= r ==> IsValidPosition(b, p.shape, x, k)
    decreases Rows - y
  {
    ValidAboveFloor(b, p, x, y);
    if IsValidPosition(b, p.shape, x, y + 1) then
      ValidAboveFloor(b, p, x, y + 1);
      DropRow(b, p, x, y + 1)
    else y
  }

  /** The automatic drop after a move: a manual step down resets the move count;
      otherwise the second move in a row pulls the piece down one row when it can. */
  function Gravity(s: Session, manualDown: bool): (r: Session)
    requires IsBoard(s.board) && IsValidPosition(s.board, s.current.shape, s.x, s.y)
    requires s.moveCount == 0 || s.moveCount == 1
    ensures r == s.(y := r.y, moveCount := r.moveCount)
    ensures IsValidPosition(r.board, r.current.shape, r.x, r.y)
    ensures r.moveCount == 0 || r.moveCount == 1
    ensures r.y == s.y || (r.y == s.y + 1 && r.moveCount == 0)
    ensures manualDown ==> r == s.(moveCount := 0)
    ensures !manualDown && s.moveCount == 0 ==> r == s.(moveCount := 1)
    ensures !manualDown && s.moveCount == 1 ==>
              r.moveCount == 0 && (r.y == s.y + 1 <==> IsValidPosition(s.board, s.current.shape, s.x, s.y + 1))
  {
    if manualDown then s.(moveCount := 0)
    else if s.moveCount + 1 >= 2 then
      var y := if IsValidPosition(s.board, s.current.shape, s.x, s.y + 1) then s.y + 1 else s.y;
      s.(y := y, moveCount := 0)
    else s.(moveCount := s.moveCount + 1)
  }

  /** The lock delay. A resting piece counts its moves (starting again at 0 when it was
      not resting before this key) and locks at `LockDelay`. A piece that stopped resting
      drops one row if it was resting before, and the count returns to 0. */
  function Settle(s: Session, wasTouching: bool, js: Swaps): (r: Session)
    requires WellFormed(s) && s.flash == [] && s.phase == Play
    requires IsValidPosition(s.board, s.current.shape, s.x, s.y)
    requires s.moveCount == 0 || s.moveCount == 1
    ensures Inv(r) && r.table == s.table && r.score >= s.score
  {
    if TouchingBottom(s.board, s.current.shape, s.x, s.y) then
      var lockMoves := if !wasTouching then 0 else s.lockMoves + 1;
      if lockMoves >= LockDelay then Lock(s.(lockMoves := lockMoves), js)
      else s.(lockMoves := lockMoves)
    else
      var y := if wasTouching && IsValidPosition(s.board, s.current.shape, s.x, s.y + 1) then s.y + 1 else s.y;
      s.(y := y, lockMoves := 0)
  }

  /** What follows every successful move: the automatic drop, then the lock delay. */
  function AfterMove(s: Session, wasTouching: bool, manualDown: bool, js: Swaps): (r: Session)
    requires WellFormed(s) && s.flash == [] && s.phase == Play
    requires IsValidPosition(s.board, s.current.shape, s.x, s.y)
    requires s.moveCount == 0 || s.moveCount == 1
    ensures Inv(r) && r.table == s.table && r.score >= s.score
  {
    Settle(Gravity(s, manualDown), wasTouching, js)
  }

  /** The left and right arrows: a legal shift by `dx` columns is followed by the
      automatic drop and the lock delay; an illegal one is ignored. */
  function Shift(s: Session, dx: int, js: Swaps): (r: Session)
    requires Inv(s) && s.phase == Play && s.flash == []
    ensures Inv(r) && r.table == s.table && r.score >= s.score
  {
    if IsValidPosition(s.board, s.current.shape, s.x + dx, s.y) then
      AfterMove(s.(x := s.x + dx), TouchingBottom(s.board, s.current.shape, s.x, s.y), false, js)
    else s
  }

  /** The down arrow: one row down if legal, and the move count starts again;
      otherwise the piece locks where it is. */
  function SoftDrop(s: Session, js: Swaps): (r: Session)
    requires Inv(s) && s.phase == Play && s.flash == []
    ensures Inv(r) && r.table == s.table && r.score >= s.score
  {
    if IsValidPosition(s.board, s.current.shape, s.x, s.y + 1) then
      AfterMove(s.(y := s.y + 1), TouchingBottom(s.board, s.current.shape, s.x, s.y), true, js)
    else Lock(s, js)
  }

  /** The rotation keys: a legal turn to `q` is followed by the automatic drop and the
      lock delay; an illegal one is ignored. */
  function TurnTo(s: Session, q: Piece, js: Swaps): (r: Session)
    requires Inv(s) && s.phase == Play && s.flash == [] && IsSolid(q.shape)
    ensures Inv(r) && r.table == s.table && r.score >= s.score
  {
    if IsValidPosition(s.board, q.shape, s.x, s.y) then
      AfterMove(s.(current := q), TouchingBottom(s.board, s.current.shape, s.x, s.y), false, js)
    else s
  }

  /** Space and Enter: the piece falls as far as it can and locks. */
  function HardDrop(s: Session, js: Swaps): (r: Session)
    requires Inv(s) && s.phase == Play && s.flash == []
    ensures Inv(r) && r.table == s.table && r.score >= s.score
  {
    Lock(s.(y := DropRow(s.board, s.current, s.x, s.y)), js)
  }

  /** `handleKeydown` in Play, after the flash check. */
  function PlayKey(s: Session, key: string, js: Swaps): (r: Session)
    requires Inv(s) && s.phase == Play && s.flash == []
    ensures Inv(r) && r.table == s.table && r.score >= s.score
  {
    if key == "ArrowLeft" then Shift(s, -1, js)
    else if key == "ArrowRight" then Shift(s, 1, js)
    else if key == "ArrowDown" then SoftDrop(s, js)
    else if key == "z" || key == "Z" then TurnTo(s, TurnLeft(s.current), js)
    else if key == "x" || key == "X" || key == "ArrowUp" then TurnTo(s, TurnRight(s.current), js)
    else if key == " " || key == "Enter" then HardDrop(s, js)
    else s
  }

  /** Clockwise quarter turn of the piece (`rotate`, whose cell map is `RotateCell`): a
      solid shape stays solid and an orientation of the kind stays one. */
  function TurnRight(p: Piece): (q: Piece)
    requires IsSolid(p.shape)
    ensures q.shape == Rotate(p.shape)
    ensures IsSolid(q.shape) && q.kind == p.kind
    ensures |q.shape| == Width(p.shape) && Width(q.shape) == |p.shape|
    ensures IsOriented(p) ==> IsOriented(q)
  {
    RotateKeepsSolid(p.shape);
    RotateKeepsOriented(p);
    p.(shape := Rotate(p.shape))
  }

  /** Counter-clockwise quarter turn, made of three clockwise ones: the clockwise turn
      undoes it. */
  function TurnLeft(p: Piece): (q: Piece)
    requires IsSolid(p.shape)
    ensures IsSolid(q.shape) && q.kind == p.kind
    ensures TurnRight(q) == p
    ensures IsOriented(p) ==> IsOriented(q)
  {
    var q := TurnRight(TurnRight(TurnRight(p)));
    RotateFourTimes(p.shape);
    q
  }

  // ---------------------------------------------------------------------------
  // Name entry
  // ---------------------------------------------------------------------------

  /** The character class `[a-zA-Z0-9]`. */
  predicate IsAlnum(c: char)
  {
    'a' <= c <= 'z' || 'A' <= c <= 'Z' || '0' <= c <= '9'
  }

  /** `toUpperCase` on an ASCII letter or digit. */
  function Upper(c: char): (u: char)
    requires IsAlnum(c)
    ensures IsNameChar(u)
    ensures 'a' <= c <= 'z' ==> u as int == c as int - 32
    ensures !('a' <= c <= 'z') ==> u == c
  {
    if 'a' <= c <= 'z' then (c as int - 32) as char else c
  }

  /** `padEnd(4, '-')`. */
  function PadName(name: string): (padded: string)
    requires |name| <= NameLength
    ensures |padded| == NameLength
    ensures padded[..|name|] == name
    ensures forall i :: |name| <= i < NameLength ==> padded[i] == '-'
  {
    name + seq(NameLength - |name|, _ => '-')
  }

  /** `handleKeydown` on the name-entry screen. */
  function NameKey(s: Session, key: string, js: Swaps): (r: Session)
    requires Inv(s) && s.phase == NameEntry
    ensures Inv(r)
    ensures r.phase == NameEntry || (r.phase == Highscores && key == "Enter" && s.name != "")
    ensures key == "Backspace" && s.name == "" ==> r == s
    ensures key == "Backspace" && s.name != "" ==>
              r.name + [s.name[|s.name| - 1]] == s.name && r == s.(name := r.name)
    ensures |key| == 1 && IsAlnum(key[0]) && |s.name| < NameLength ==>
              r == s.(name := s.name + [Upper(key[0])])
    ensures |key| == 1 && IsAlnum(key[0]) && |s.name| == NameLength ==> r == s
    ensures key == "Enter" && s.name != "" ==>
              r == s.(phase := Highscores, table := InsertHighscore(s.table, PadName(s.name), s.score))
    ensures ((key == "Enter" && s.name == "")
             || (key != "Enter" && key != "Backspace" && !(|key| == 1 && IsAlnum(key[0])))) ==> r == s
  {
    if key == "Backspace" then
      if |s.name| > 0 then s.(name := s.name[..|s.name| - 1]) else s
    else if |key| == 1 && |s.name| < NameLength && IsAlnum(key[0]) then
      s.(name := s.name + [Upper(key[0])])
    else if key == "Enter" && |s.name| > 0 then
      var t := InsertHighscore(s.table, PadName(s.name), s.score);
      SetPhase(s.(table := t), Highscores, js)
    else s
  }

  // ---------------------------------------------------------------------------
  // The whole key handler, the timer, and runs of events
  // ---------------------------------------------------------------------------

  /** `handleKeydown`. `js` supplies the shuffle for the one bag that may be refilled. */
  function Step(s: Session, key: string, js: Swaps): (r: Session)
    requires Inv(s)
    ensures Inv(r)
    ensures s.phase == Play && s.flash != [] ==> r == s
  {
    match s.phase
    case Title =>
      if key == "Enter" then SetPhase(s, Play, js)
      else if key == "h" || key == "H" then SetPhase(s, Highscores, js)
      else s
    case Play =>
      if s.flash != [] then s else PlayKey(s, key, js)
    case GameOver =>
      if key == "Enter" then SetPhase(s, Title, js) else s
    case NameEntry =>
      NameKey(s, key, js)
    case Highscores =>
      if key == "Enter" then SetPhase(s, Title, js) else s
  }

  /** What reaches the game: a key press, or the end of the flash effect. */
  datatype Event = Key(key: string, js: Swaps) | FlashOver(js: Swaps)

  /** One event. The flash timer only acts while rows are flashing. */
  function Handle(s: Session, e: Event): (r: Session)
    requires Inv(s)
    ensures Inv(r)
  {
    match e
    case Key(key, js) => Step(s, key, js)
    case FlashOver(js) => if s.phase == Play && s.flash != [] then ResolveFlash(s, js) else s
  }

  /** A run of events from the session `s`. */
  function Run(s: Session, events: seq<Event>): (r: Session)
    requires Inv(s)
    ensures Inv(r)
    decreases |events|
  {
    if events == [] then s else Run(Handle(s, events[0]), events[1..])
  }

  /** The session when the page loads: the title screen with the default table. The
      board, pieces and counters are placeholders that `startGame` replaces. */
  function Initial(): (s: Session)
    ensures Inv(s) && s.phase == Title && s.table == DefaultTable()
  {
    CatalogShapeSolid(0);
    DefaultTableQualification(0);
    Session(Title, EmptyBoard(), Piece(0, CatalogShape(0)), Piece(0, CatalogShape(0)),
            0, 0, 0, 0, 0, [], "", DefaultTable(), [])
  }
}

=== FILE: game_properties.dfy ===
/** What one key press does in each phase, stated against the session before it, and
    the consequences of the way `game.js` orders its checks. */
module GameProperties {
  import opened SeqUtil
  import opened Tetromino
  import opened Storage
  import opened Board
  import opened Game

  /** A running game waiting for the next key: no rows are flashing. */
  predicate Playing(s: Session)
  {
    Inv(s) && s.phase == Play && s.flash == []
  }

  // ---------------------------------------------------------------------------
  // Screens other than Play
  // ---------------------------------------------------------------------------

  /** On the title screen Enter starts a game on an empty board with score 0 and the
      first piece at its spawn position; `h` or `H` shows the highscores; every other
      key is ignored. */
  lemma TitleKeys(s: Session, key: string, js: Swaps)
    requires Inv(s) && s.phase == Title
    ensures var r := Step(s, key, js);
      if key == "Enter" then
        r.phase == Play && r.board == EmptyBoard() && r.score == 0 && r.flash == []
        && r.y == 0 && r.x == SpawnX(r.current.shape) && r.moveCount == 0 && r.lockMoves == 0
        && r.current.shape == CatalogShape(r.current.kind)
        && IsValidPosition(r.board, r.current.shape, r.x, r.y)
      else if key == "h" || key == "H" then r == s.(phase := Highscores)
      else r == s
  {
  }

  /** Game over and the highscore list both return to the title on Enter, keeping
      everything else, and ignore every other key. */
  lemma BackToTitle(s: Session, key: string, js: Swaps)
    requires Inv(s) && (s.phase == GameOver || s.phase == Highscores)
    ensures Step(s, key, js) == if key == "Enter" then s.(phase := Title) else s
  {
  }

  /** While rows are flashing every key is ignored. */
  lemma FlashIgnoresKeys(s: Session, key: string, js: Swaps)
    requires Inv(s) && s.phase == Play && s.flash != []
    ensures Step(s, key, js) == s
  {
  }

  // ---------------------------------------------------------------------------
  // Play, one layer at a time: the key, the automatic drop, the lock delay
  // ---------------------------------------------------------------------------

  /** With no rows flashing, a key in Play goes to the play handler. */
  lemma PlayStep(s: Session, key: string, js: Swaps)
    requires Playing(s)
    ensures Step(s, key, js) == PlayKey(s, key, js)
  {
  }

  /** Which handler each key reaches. */
  lemma KeyDispatch(s: Session, key: string, js: Swaps)
    requires Playing(s)
    ensures key == "ArrowLeft" ==> Step(s, key, js) == Shift(s, -1, js)
    ensures key == "ArrowRight" ==> Step(s, key, js) == Shift(s, 1, js)
    ensures key == "ArrowDown" ==> Step(s, key, js) == SoftDrop(s, js)
    ensures key == "z" || key == "Z" ==> Step(s, key, js) == TurnTo(s, TurnLeft(s.current), js)
    ensures key == "x" || key == "X" || key == "ArrowUp" ==> Step(s, key, js) == TurnTo(s, TurnRight(s.current), js)
    ensures key == " " || key == "Enter" ==> Step(s, key, js) == HardDrop(s, js)
    ensures key !in {"ArrowLeft", "ArrowRight", "ArrowDown", "z", "Z", "x", "X", "ArrowUp", " ", "Enter"} ==>
              Step(s, key, js) == s
  {
    PlayStep(s, key, js);
  }

  /** A first move that leaves the piece in the air: the move is counted, and a piece
      that was resting before the move falls one row. */
  lemma FirstMoveSettles(m: Session, wasTouching: bool, js: Swaps)
    requires WellFormed(m) && m.phase == Play && m.flash == [] && m.moveCount == 0
    requires IsValidPosition(m.board, m.current.shape, m.x, m.y)
    requires !TouchingBottom(m.board, m.current.shape, m.x, m.y)
    ensures AfterMove(m, wasTouching, false, js)
         == m.(y := if wasTouching then m.y + 1 else m.y, moveCount := 1, lockMoves := 0)
  {
    assert Gravity(m, false) == m.(moveCount := 1);
  }

  /** A second move in a row from a piece in the air pulls it down one row. */
  lemma SecondMoveSettles(m: Session, js: Swaps)
    requires WellFormed(m) && m.phase == Play && m.flash == [] && m.moveCount == 1
    requires IsValidPosition(m.board, m.current.shape, m.x, m.y)
    requires !TouchingBottom(m.board, m.current.shape, m.x, m.y)
    ensures AfterMove(m, false, false, js) == m.(y := m.y + 1, moveCount := 0, lockMoves := 0)
  {
    assert Gravity(m, false) == m.(y := m.y + 1, moveCount := 0);
  }

  /** A manual step down resets the move count; the lock count restarts at 0 because
      the piece was not resting before the step. */
  lemma DownSettles(m: Session, js: Swaps)
    requires WellFormed(m) && m.phase == Play && m.flash == []
    requires m.moveCount == 0 || m.moveCount == 1
    requires IsValidPosition(m.board, m.current.shape, m.x, m.y)
    ensures AfterMove(m, false, true, js) == m.(moveCount := 0, lockMoves := 0)
  {
    var g := m.(moveCount := 0);
    assert Gravity(m, true) == g;
    assert AfterMove(m, false, true, js) == Settle(g, false, js);
    if TouchingBottom(g.board, g.current.shape, g.x, g.y) {
      assert Settle(g, false, js) == g.(lockMoves := 0);
    } else {
      assert Settle(g, false, js) == g.(y := g.y, lockMoves := 0);
    }
  }

  /** A move that leaves the piece resting: the automatic drop cannot move it, so only the
      move count changes (to 1 on a first move, back to 0 on a second). The lock count
      starts at 0 if the piece was not resting before, and otherwise goes up by one and
      locks at `LockDelay`. */
  lemma RestingMoveSettles(m: Session, wasTouching: bool, js: Swaps)
    requires WellFormed(m) && m.phase == Play && m.flash == []
    requires m.moveCount == 0 || m.moveCount == 1
    requires IsValidPosition(m.board, m.current.shape, m.x, m.y)
    requires TouchingBottom(m.board, m.current.shape, m.x, m.y)
    ensures var c := if m.moveCount == 0 then 1 else 0;
      var n := if wasTouching then m.lockMoves + 1 else 0;
      AfterMove(m, wasTouching, false, js)
      == if n >= LockDelay then Lock(m.(moveCount := c, lockMoves := n), js)
         else m.(moveCount := c, lockMoves := n)
  {
    var g := m.(moveCount := if m.moveCount == 0 then 1 else 0);
    assert Gravity(m, false) == g;
    assert AfterMove(m, wasTouching, false, js) == Settle(g, wasTouching, js);
    if wasTouching && m.lockMoves + 1 >= LockDelay {
      assert Settle(g, true, js) == Lock(g.(lockMoves := m.lockMoves + 1), js);
    } else {
      var n := if wasTouching then m.lockMoves + 1 else 0;
      assert Settle(g, wasTouching, js) == g.(lockMoves := n);
    }
  }

  /** A second move in a row that takes a resting piece off its ledge: the automatic drop
      pulls it down one row, and then the lock delay treats it as a piece that was resting
      before. If it rests again one row lower, its lock count goes up by one (and it locks
      at `LockDelay`); if it is still in the air, it falls a second row. */
  lemma SecondMoveOffLedge(m: Session, js: Swaps)
    requires WellFormed(m) && m.phase == Play && m.flash == [] && m.moveCount == 1
    requires IsValidPosition(m.board, m.current.shape, m.x, m.y)
    requires !TouchingBottom(m.board, m.current.shape, m.x, m.y)
    ensures var d := m.(y := m.y + 1, moveCount := 0);
      var n := m.lockMoves + 1;
      AfterMove(m, true, false, js)
      == if TouchingBottom(d.board, d.current.shape, d.x, d.y) then
           (if n >= LockDelay then Lock(d.(lockMoves := n), js) else d.(lockMoves := n))
         else m.(y := m.y + 2, moveCount := 0, lockMoves := 0)
  {
    var d := m.(y := m.y + 1, moveCount := 0);
    assert Gravity(m, false) == d;
    assert AfterMove(m, true, false, js) == Settle(d, true, js);
  }

  // ---------------------------------------------------------------------------
  // Play: moving, turning, dropping
  // ---------------------------------------------------------------------------

  /** A shift to an illegal position is ignored. */
  lemma BlockedShiftIgnored(s: Session, dx: int, js: Swaps)
    requires Playing(s) && !IsValidPosition(s.board, s.current.shape, s.x + dx, s.y)
    ensures Shift(s, dx, js) == s
  {
  }

  /** A turn to an illegal position is ignored. */
  lemma BlockedTurnIgnored(s: Session, q: Piece, js: Swaps)
    requires Playing(s) && IsSolid(q.shape) && !IsValidPosition(s.board, q.shape, s.x, s.y)
    ensures TurnTo(s, q, js) == s
  {
  }

  /** A legal step down moves the piece one row and resets the move count and, since
      the piece was not resting, the lock count. */
  lemma DownMoves(s: Session, js: Swaps)
    requires Playing(s) && IsValidPosition(s.board, s.current.shape, s.x, s.y + 1)
    ensures SoftDrop(s, js) == s.(y := s.y + 1, moveCount := 0, lockMoves := 0)
  {
    SoftDropSteps(s, js);
    DownSettles(s.(y := s.y + 1), js);
  }

  /** A legal step down is a manual move from a piece that was not resting. */
  lemma SoftDropSteps(s: Session, js: Swaps)
    requires Playing(s) && IsValidPosition(s.board, s.current.shape, s.x, s.y + 1)
    ensures SoftDrop(s, js) == AfterMove(s.(y := s.y + 1), false, true, js)
  {
    assert !TouchingBottom(s.board, s.current.shape, s.x, s.y);
  }

  /** A legal shift is a non-manual move, judged resting or not from where it started. */
  lemma ShiftSteps(s: Session, dx: int, js: Swaps)
    requires Playing(s) && IsValidPosition(s.board, s.current.shape, s.x + dx, s.y)
    ensures Shift(s, dx, js)
         == AfterMove(s.(x := s.x + dx), TouchingBottom(s.board, s.current.shape, s.x, s.y), false, js)
  {
  }

  /** A legal turn is a non-manual move, judged resting or not from where it started. */
  lemma TurnSteps(s: Session, q: Piece, js: Swaps)
    requires Playing(s) && IsSolid(q.shape) && IsValidPosition(s.board, q.shape, s.x, s.y)
    ensures TurnTo(s, q, js)
         == AfterMove(s.(current := q), TouchingBottom(s.board, s.current.shape, s.x, s.y), false, js)
  {
  }

  /** A step down from a resting position locks the piece at once. */
  lemma DownLocks(s: Session, js: Swaps)
    requires Playing(s) && TouchingBottom(s.board, s.current.shape, s.x, s.y)
    ensures SoftDrop(s, js) == Lock(s, js)
  {
    assert Inv(s) && s.phase == Play && s.flash == [];
    assert !IsValidPosition(s.board, s.current.shape, s.x, s.y + 1);
  }

  /** The hard drop locks the piece in the lowest row it reaches by falling straight down. */
  lemma HardDropLands(s: Session, js: Swaps)
    requires Playing(s)
    ensures var r := DropRow(s.board, s.current, s.x, s.y);
      r >= s.y && TouchingBottom(s.board, s.current.shape, s.x, r)
      && (forall k :: s.y <= k <= r ==> IsValidPosition(s.board, s.current.shape, s.x, k))
      && HardDrop(s, js) == Lock(s.(y := r), js)
  {
  }

  /** A second shift in a row that slides a resting piece off its ledge into open air
      drops it two rows at once: one for the second move, one for leaving the ledge. */
  lemma SecondShiftOffLedgeDropsTwo(s: Session, dx: int, js: Swaps)
    requires Playing(s) && s.moveCount == 1
    requires IsValidPosition(s.board, s.current.shape, s.x + dx, s.y)
    requires TouchingBottom(s.board, s.current.shape, s.x, s.y)
    requires !TouchingBottom(s.board, s.current.shape, s.x + dx, s.y)
    requires !TouchingBottom(s.board, s.current.shape, s.x + dx, s.y + 1)
    ensures Shift(s, dx, js) == s.(x := s.x + dx, y := s.y + 2, moveCount := 0, lockMoves := 0)
  {
    SecondMoveOffLedge(s.(x := s.x + dx), js);
  }

  /** The first shift of a piece in the air only counts the move. */
  lemma FirstShiftInAir(s: Session, dx: int, js: Swaps)
    requires Playing(s) && s.moveCount == 0
    requires IsValidPosition(s.board, s.current.shape, s.x + dx, s.y)
    requires !TouchingBottom(s.board, s.current.shape, s.x, s.y)
    requires !TouchingBottom(s.board, s.current.shape, s.x + dx, s.y)
    ensures Shift(s, dx, js) == s.(x := s.x + dx, moveCount := 1, lockMoves := 0)
  {
    FirstMoveSettles(s.(x := s.x + dx), false, js);
  }

  /** Every second shift in a row pulls a piece in the air down one row. */
  lemma SecondShiftDrops(s: Session, dx: int, js: Swaps)
    requires Playing(s) && s.moveCount == 1
    requires IsValidPosition(s.board, s.current.shape, s.x + dx, s.y)
    requires !TouchingBottom(s.board, s.current.shape, s.x, s.y)
    requires !TouchingBottom(s.board, s.current.shape, s.x + dx, s.y)
    ensures Shift(s, dx, js) == s.(x := s.x + dx, y := s.y + 1, moveCount := 0, lockMoves := 0)
  {
    var m0 := s.(x := s.x + dx);
    assert Shift(s, dx, js) == AfterMove(m0, false, false, js);
    SecondMoveSettles(m0, js);
  }

  /** A legal turn of a piece in the air counts as a move. */
  lemma TurnInAir(s: Session, q: Piece, js: Swaps)
    requires Playing(s) && s.moveCount == 0 && IsSolid(q.shape)
    requires IsValidPosition(s.board, q.shape, s.x, s.y)
    requires !TouchingBottom(s.board, s.current.shape, s.x, s.y)
    requires !TouchingBottom(s.board, q.shape, s.x, s.y)
    ensures TurnTo(s, q, js) == s.(current := q, moveCount := 1, lockMoves := 0)
  {
    FirstMoveSettles(s.(current := q), false, js);
  }

  // ---------------------------------------------------------------------------
  // Play: the lock delay
  // ---------------------------------------------------------------------------

  /** A piece that comes to rest by a shift starts counting at 0. */
  lemma ComesToRest(s: Session, dx: int, js: Swaps)
    requires Playing(s) && s.moveCount == 0
    requires IsValidPosition(s.board, s.current.shape, s.x + dx, s.y)
    requires !TouchingBottom(s.board, s.current.shape, s.x, s.y)
    requires TouchingBottom(s.board, s.current.shape, s.x + dx, s.y)
    ensures Shift(s, dx, js) == s.(x := s.x + dx, moveCount := 1, lockMoves := 0)
  {
    RestingMoveSettles(s.(x := s.x + dx), false, js);
  }

  /** A resting piece that shifts and still rests counts the move. */
  lemma RestingShiftCounts(s: Session, dx: int, js: Swaps)
    requires Playing(s) && s.moveCount == 0 && s.lockMoves + 1 < LockDelay
    requires IsValidPosition(s.board, s.current.shape, s.x + dx, s.y)
    requires TouchingBottom(s.board, s.current.shape, s.x, s.y)
    requires TouchingBottom(s.board, s.current.shape, s.x + dx, s.y)
    ensures Shift(s, dx, js) == s.(x := s.x + dx, moveCount := 1, lockMoves := s.lockMoves + 1)
  {
    RestingMoveSettles(s.(x := s.x + dx), true, js);
  }

  /** The count reaching `LockDelay` locks a resting piece in its new place. */
  lemma RestingShiftLocks(s: Session, dx: int, js: Swaps)
    requires Playing(s) && s.moveCount == 0 && s.lockMoves + 1 >= LockDelay
    requires IsValidPosition(s.board, s.current.shape, s.x + dx, s.y)
    requires TouchingBottom(s.board, s.current.shape, s.x, s.y)
    requires TouchingBottom(s.board, s.current.shape, s.x + dx, s.y)
    ensures Shift(s, dx, js) == Lock(s.(x := s.x + dx, moveCount := 1, lockMoves := s.lockMoves + 1), js)
  {
    var m0 := s.(x := s.x + dx);
    var m := s.(x := s.x + dx, moveCount := 1, lockMoves := s.lockMoves + 1);
    assert m0.(moveCount := 1, lockMoves := m0.lockMoves + 1) == m;
    RestingMoveSettles(m0, true, js);
    assert AfterMove(m0, true, false, js) == Lock(m, js);
    assert Shift(s, dx, js) == AfterMove(m0, true, false, js);
  }

  /** A resting piece shifted off its ledge falls one row at once and stops counting. */
  lemma SlidesOffLedge(s: Session, dx: int, js: Swaps)
    requires Playing(s) && s.moveCount == 0
    requires IsValidPosition(s.board, s.current.shape, s.x + dx, s.y)
    requires TouchingBottom(s.board, s.current.shape, s.x, s.y)
    requires !TouchingBottom(s.board, s.current.shape, s.x + dx, s.y)
    ensures Shift(s, dx, js) == s.(x := s.x + dx, y := s.y + 1, moveCount := 1, lockMoves := 0)
  {
    FirstMoveSettles(s.(x := s.x + dx), true, js);
  }

  /** The lock count is not bounded by `LockDelay` between turns: a piece locked by the
      lock delay hands its count of 2 to the next piece, which stands in the spawn row.
      (The next key then locks that piece at once if it is resting and was resting.) */
  lemma LockCountCarriesOver(s: Session, dx: int, js: Swaps)
    requires Playing(s) && s.moveCount == 0 && s.lockMoves == 1
    requires IsValidPosition(s.board, s.current.shape, s.x + dx, s.y)
    requires TouchingBottom(s.board, s.current.shape, s.x, s.y)
    requires TouchingBottom(s.board, s.current.shape, s.x + dx, s.y)
    requires var b := Landed(s.board, s.current, s.x + dx, s.y);
             FullRows(b) == [] && IsValidPosition(b, s.next.shape, SpawnX(s.next.shape), 0)
    ensures var r := Shift(s, dx, js);
      r.phase == Play && r.flash == [] && r.lockMoves == LockDelay && r.y == 0 && r.current == s.next
  {
    RestingShiftLocks(s, dx, js);
    ShiftedLockSpawns(s, dx, js);
  }

  /** The lock that ends a shifted piece without completing a row spawns the next piece
      with the incremented lock count. */
  lemma ShiftedLockSpawns(s: Session, dx: int, js: Swaps)
    requires WellFormed(s) && s.phase == Play && s.flash == []
    requires IsValidPosition(s.board, s.current.shape, s.x + dx, s.y)
    requires var b := Landed(s.board, s.current, s.x + dx, s.y);
             FullRows(b) == [] && IsValidPosition(b, s.next.shape, SpawnX(s.next.shape), 0)
    ensures var r := Lock(s.(x := s.x + dx, moveCount := 1, lockMoves := s.lockMoves + 1), js);
      r.phase == Play && r.flash == [] && r.lockMoves == s.lockMoves + 1 && r.y == 0
      && r.current == s.next
  {
    var m := s.(x := s.x + dx, moveCount := 1, lockMoves := s.lockMoves + 1);
    assert m.board == s.board && m.current == s.current && m.x == s.x + dx && m.y == s.y;
    LockWithoutLines(m, js);
  }

  /** A lock that completes no row keeps the lock count and spawns the next piece; the
      game goes on exactly when the next piece fits. */
  lemma LockWithoutLines(s: Session, js: Swaps)
    requires WellFormed(s) && s.flash == [] && s.phase == Play
    requires IsValidPosition(s.board, s.current.shape, s.x, s.y)
    requires FullRows(Landed(s.board, s.current, s.x, s.y)) == []
    ensures var r := Lock(s, js);
      r.flash == [] && r.score == s.score && r.lockMoves == s.lockMoves && r.current == s.next
      && r.y == 0 && (r.phase == Play <==> IsValidPosition(r.board, s.next.shape, SpawnX(s.next.shape), 0))
  {
  }

  // ---------------------------------------------------------------------------
  // Line clears
  // ---------------------------------------------------------------------------

  /** Clearing one row drops it and shifts every row above it down by one. */
  lemma SingleRowClear(s: Session, js: Swaps)
    requires Inv(s) && s.phase == Play && |s.flash| == 1
    ensures ResolveFlash(s, js).board == [EmptyRow()] + s.board[..s.flash[0]] + s.board[s.flash[0] + 1..]
  {
    var row := s.flash[0];
    assert s.flash == [row];
    assert Reverse(s.flash) == [row];
    ClearOneRow(s.board, row);
  }

  /** When the two bottom rows clear together, the bottom row of the result is old row
      18, still full, and old row 17 is lost: the removal does not account for the empty
      row pushed on top by the first removal. */
  lemma BottomTwoRowsClear(s: Session, js: Swaps)
    requires Inv(s) && s.phase == Play && s.flash == [18, 19]
    ensures var b := ResolveFlash(s, js).board;
      b[19] == s.board[18] && IsFull(b[19])
      && b == [EmptyRow(), EmptyRow()] + s.board[..17] + s.board[18..19]
  {
    assert Reverse(s.flash) == [19, 18];
    BottomTwoRowsClearLeavesFullRow(s.board);
    ClearTwoRowsAsWritten(s.board, 19, 18);
  }

  /** The I piece at column 3 fits the empty board in exactly the rows 0 to 19. */
  lemma IPieceRows(k: int)
    ensures IsValidPosition(EmptyBoard(), CatalogShape(0), 3, k) <==> 0 <= k < Rows
  {
    var shape := CatalogShape(0);
    assert shape == [[1, 1, 1, 1]];
    ValidIffFits(EmptyBoard(), shape, 3, k);
    if !(0 <= k < Rows) {
      assert shape[0][0] != 0 && Blocked(EmptyBoard(), 3, k);
    }
  }

  /** Dropped from the top row at column 3 of the empty board, the I piece lands in the
      bottom row. */
  lemma IPieceDropsToBottom()
    ensures IsSolid(CatalogShape(0)) && IsValidPosition(EmptyBoard(), CatalogShape(0), 3, 0)
    ensures DropRow(EmptyBoard(), Piece(0, CatalogShape(0)), 3, 0) == Rows - 1
  {
    CatalogShapeSolid(0);
    IPieceRows(0);
    var r := DropRow(EmptyBoard(), Piece(0, CatalogShape(0)), 3, 0);
    IPieceRows(r);
    IPieceRows(r + 1);
  }

  /** The I piece locked in the bottom row at column 3 of the empty board fills columns 3
      to 6 of that row with 1 and completes no row. */
  lemma IPieceInBottomRow()
    ensures IsValidPosition(EmptyBoard(), CatalogShape(0), 3, Rows - 1)
    ensures var b := Landed(EmptyBoard(), Piece(0, CatalogShape(0)), 3, Rows - 1);
      b[Rows - 1] == [0, 0, 0, 1, 1, 1, 1, 0, 0, 0]
      && (forall i :: 0 <= i < Rows - 1 ==> b[i] == EmptyRow())
      && FullRows(b) == []
  {
    var shape := CatalogShape(0);
    assert shape == [[1, 1, 1, 1]];
    IPieceRows(Rows - 1);
    var b := Landed(EmptyBoard(), Piece(0, shape), 3, Rows - 1);
    PlaceCells(EmptyBoard(), shape, 3, Rows - 1, 1);
    forall i | 0 <= i < Rows - 1
      ensures b[i] == EmptyRow()
    {
      assert forall j :: 0 <= j < Cols ==> b[i][j] == 0;
    }
    forall j | 0 <= j < Cols
      ensures b[19][j] == [0, 0, 0, 1, 1, 1, 1, 0, 0, 0][j]
    {
    }
    forall r | 0 <= r < Rows
      ensures !IsFull(b[r])
    {
      assert b[r][0] == 0;
    }
    NoFullRows(b);
  }

  /** A hard drop of an I piece at its spawn column on the empty board lands in the
      bottom row, fills columns 3 to 6 of it with 1, completes no row and scores nothing. */
  lemma DropIOnEmptyBoard(s: Session, js: Swaps)
    requires Playing(s) && s.board == EmptyBoard() && s.current == Piece(0, CatalogShape(0)) && s.y == 0
    ensures s.x == SpawnX(s.current.shape) ==> s.x == 3
    ensures s.x == 3 ==>
      var r := HardDrop(s, js);
      r.flash == [] && r.score == s.score
      && r.board[Rows - 1] == [0, 0, 0, 1, 1, 1, 1, 0, 0, 0]
      && forall i :: 0 <= i < Rows - 1 ==> r.board[i] == EmptyRow()
  {
    if s.x == 3 {
      IPieceDropsToBottom();
      IPieceInBottomRow();
      assert HardDrop(s, js) == Lock(s.(y := Rows - 1), js);
      LockWithoutLines(s.(y := Rows - 1), js);
    }
  }

  // ---------------------------------------------------------------------------
  // Name entry
  // ---------------------------------------------------------------------------

  /** A letter or digit is appended in upper case while the name is shorter than four
      characters, and ignored once it has four. */
  lemma NameTyping(s: Session, c: char, js: Swaps)
    requires Inv(s) && s.phase == NameEntry && IsAlnum(c)
    ensures |s.name| < NameLength ==> Step(s, [c], js) == s.(name := s.name + [Upper(c)])
    ensures |s.name| == NameLength ==> Step(s, [c], js) == s
  {
  }

  /** Backspace removes the last character, if any. */
  lemma NameBackspace(s: Session, js: Swaps)
    requires Inv(s) && s.phase == NameEntry
    ensures var r := Step(s, "Backspace", js);
      r.phase == NameEntry && (s.name == "" ==> r == s)
      && (s.name != "" ==> r.name + [s.name[|s.name| - 1]] == s.name && r == s.(name := r.name))
  {
  }

  /** Typing `a`, `b`, `c`, `d`, `e` into an empty name gives `ABCD`; a backspace then
      gives `ABC`. */
  lemma NameOfFourThenBackspace(s: Session, js: Swaps)
    requires Inv(s) && s.phase == NameEntry && s.name == ""
    ensures var s5 := Step(Step(Step(Step(Step(s, "a", js), "b", js), "c", js), "d", js), "e", js);
      s5.name == "ABCD" && Step(s5, "Backspace", js).name == "ABC"
  {
    NameTyping(s, 'a', js);
    var s1 := Step(s, "a", js);
    NameTyping(s1, 'b', js);
    var s2 := Step(s1, "b", js);
    NameTyping(s2, 'c', js);
    var s3 := Step(s2, "c", js);
    NameTyping(s3, 'd', js);
    var s4 := Step(s3, "d", js);
    NameTyping(s4, 'e', js);
    NameBackspace(Step(s4, "e", js), js);
  }

  /** Enter with a non-empty name records the name, padded with `-` to four characters,
      with the score: the entry takes the place after every entry scoring at least as
      much, and the old tenth entry drops out. Then the highscore list is shown. */
  lemma NameEnterRecordsScore(s: Session, js: Swaps)
    requires Inv(s) && s.phase == NameEntry && s.name != ""
    ensures var r := Step(s, "Enter", js);
      r.phase == Highscores && r.score == s.score && r.board == s.board
      && exists k :: 0 <= k < HighscoreSize
           && r.table == s.table[..k] + [Entry(PadName(s.name), s.score)] + s.table[k..HighscoreSize - 1]
           && (forall i :: 0 <= i < k ==> s.table[i].score >= s.score)
           && (forall i :: k <= i < HighscoreSize ==> s.table[i].score < s.score)
  {
    var t := InsertHighscore(s.table, PadName(s.name), s.score);
    assert Step(s, "Enter", js) == NameKey(s, "Enter", js) == s.(phase := Highscores, table := t);
    QualifyingScoreIsInserted(s.table, PadName(s.name), s.score);
  }

  /** Enter with an empty name, and every key that is neither a letter, a digit,
      Backspace nor Enter, does nothing. */
  lemma NameOtherKeysIgnored(s: Session, key: string, js: Swaps)
    requires Inv(s) && s.phase == NameEntry
    requires (key == "Enter" && s.name == "")
          || (key != "Enter" && key != "Backspace" && !(|key| == 1 && IsAlnum(key[0])))
    ensures Step(s, key, js) == s
  {
  }

  // ---------------------------------------------------------------------------
  // Whole runs
  // ---------------------------------------------------------------------------

  /** During a game the score never goes down, whatever the key or timer event. */
  lemma PlayNeverLowersScore(s: Session, e: Event)
    requires Inv(s) && s.phase == Play
    ensures Handle(s, e).score >= s.score
  {
  }
}

=== FILE: seq_util.dfy ===
/** Small sequence helpers shared by the piece catalog and the board. */
module SeqUtil {

  /** The elements of `xs` in the opposite order (JavaScript's `Array.prototype.reverse`). */
  function Reverse<T>(xs: seq<T>): (r: seq<T>)
    ensures |r| == |xs|
    ensures forall k :: 0 <= k < |xs| ==> r[k] == xs[|xs| - 1 - k]
    decreases |xs|
  {
    if xs == [] then [] else Reverse(xs[1..]) + [xs[0]]
  }

  /** Reversing keeps every element with its multiplicity. */
  lemma {:induction false} ReverseIsPermutation<T>(xs: seq<T>)
    ensures multiset(Reverse(xs)) == multiset(xs)
    decreases |xs|
  {
    if xs != [] {
      ReverseIsPermutation(xs[1..]);
      assert xs == [xs[0]] + xs[1..];
    }
  }

  /** The last element comes first after reversing. */
  lemma ReverseSnoc<T>(xs: seq<T>, x: T)
    ensures Reverse(xs + [x]) == [x] + Reverse(xs)
  {
    var l := Reverse(xs + [x]);
    var r := [x] + Reverse(xs);
    assert |l| == |r|;
    forall k | 0 <= k < |l|
      ensures l[k] == r[k]
    {
      if k > 0 {
        assert l[k] == (xs + [x])[|xs| - k];
      }
    }
  }
}

=== FILE: storage.dfy ===
/** The bounded highscore table (`storage.js`), as an in-memory value. */
module Storage {

  /** Number of entries kept. */
  const HighscoreSize := 10

  datatype Entry = Entry(name: string, score: int)

  /** Scores never increase from one entry to the next. */
  predicate SortedByScore(t: seq<Entry>)
  {
    forall i, j :: 0 <= i < j < |t| ==> t[i].score >= t[j].score
  }

  /** The table used when nothing is stored yet. */
  function DefaultTable(): (t: seq<Entry>)
    ensures |t| == HighscoreSize
    ensures forall i :: 0 <= i < |t| ==> t[i] == Entry("----", 0)
  {
    seq(HighscoreSize, _ => Entry("----", 0))
  }

  /** A score qualifies when it beats the last (10th) entry. */
  function CheckHighscore(t: seq<Entry>, score: int): bool
    requires |t| >= HighscoreSize
  {
    score > t[HighscoreSize - 1].score
  }

  /** Place `e` after every leading entry whose score is at least `e.score`
      (one step of a stable insertion sort). */
  function InsertByScore(t: seq<Entry>, e: Entry): (r: seq<Entry>)
    ensures |r| == |t| + 1
    decreases |t|
  {
    if t == [] then [e]
    else if t[0].score >= e.score then [t[0]] + InsertByScore(t[1..], e)
    else [e] + t
  }

  /** The insertion step adds exactly the new entry. */
  lemma {:induction false} InsertByScorePermutes(t: seq<Entry>, e: Entry)
    ensures multiset(InsertByScore(t, e)) == multiset(t) + multiset{e}
    decreases |t|
  {
    if t != [] && t[0].score >= e.score {
      InsertByScorePermutes(t[1..], e);
      assert t == [t[0]] + t[1..];
    }
  }

  /** Stable sort by descending score: an entry never overtakes an earlier entry
      with the same score. */
  function SortByScore(t: seq<Entry>): (r: seq<Entry>)
    ensures |r| == |t|
    ensures multiset(r) == multiset(t)
    ensures SortedByScore(r)
    decreases |t|
  {
    if t == [] then []
    else
      assert t == t[..|t| - 1] + [t[|t| - 1]];
      var sorted := SortByScore(t[..|t| - 1]);
      InsertByScoreKeepsSorted(sorted, t[|t| - 1]);
      InsertByScorePermutes(sorted, t[|t| - 1]);
      InsertByScore(sorted, t[|t| - 1])
  }

  // ---------------------------------------------------------------------------
  // Stability
  // ---------------------------------------------------------------------------

  /** The entries scoring exactly `v`, in table order. */
  function WithScore(t: seq<Entry>, v: int): seq<Entry>
    decreases |t|
  {
    if t == [] then []
    else (if t[0].score == v then [t[0]] else []) + WithScore(t[1..], v)
  }

  lemma {:induction false} WithScoreAppend(a: seq<Entry>, b: seq<Entry>, v: int)
    ensures WithScore(a + b, v) == WithScore(a, v) + WithScore(b, v)
    decreases |a|
  {
    if a == [] {
      assert a + b == b;
    } else {
      assert (a + b)[0] == a[0] && (a + b)[1..] == a[1..] + b;
      WithScoreAppend(a[1..], b, v);
    }
  }

  /** No entry of the table scores `v`. */
  lemma {:induction false} WithScoreNone(t: seq<Entry>, v: int)
    requires forall i :: 0 <= i < |t| ==> t[i].score != v
    ensures WithScore(t, v) == []
    decreases |t|
  {
    if t != [] {
      WithScoreNone(t[1..], v);
    }
  }

  /** On a sorted table the new entry goes after every entry with its own score. */
  lemma {:induction false} InsertByScoreStable(t: seq<Entry>, e: Entry, v: int)
    requires SortedByScore(t)
    ensures WithScore(InsertByScore(t, e), v) == WithScore(t, v) + WithScore([e], v)
    decreases |t|
  {
    if t == [] {
    } else if t[0].score >= e.score {
      assert SortedByScore(t[1..]);
      InsertByScoreStable(t[1..], e, v);
    } else {
      WithScoreNone(t, e.score);
      WithScoreAppend([e], t, v);
      if e.score == v {
        assert WithScore(t, v) == [];
      } else {
        assert WithScore([e], v) == [];
      }
    }
  }

  /** The sort is stable: for every score, the entries with that score keep their order. */
  lemma {:induction false} SortByScoreStable(t: seq<Entry>, v: int)
    ensures WithScore(SortByScore(t), v) == WithScore(t, v)
    decreases |t|
  {
    if t != [] {
      var init, last := t[..|t| - 1], t[|t| - 1];
      SortByScoreStable(init, v);
      InsertByScoreStable(SortByScore(init), last, v);
      assert init + [last] == t;
      WithScoreAppend(init, [last], v);
    }
  }

  /** The first `n` entries, or all of them if there are fewer (`slice(0, n)`). */
  function Take(t: seq<Entry>, n: nat): (r: seq<Entry>)
  {
    if |t| <= n then t else t[..n]
  }

  /** Append the new entry, sort stably by descending score, keep the best ten. */
  function InsertHighscore(t: seq<Entry>, name: string, score: int): (r: seq<Entry>)
    ensures |r| == if |t| + 1 < HighscoreSize then |t| + 1 else HighscoreSize
    ensures SortedByScore(r)
    ensures multiset(r) <= multiset(t) + multiset{Entry(name, score)}
  {
    var sorted := SortByScore(t + [Entry(name, score)]);
    var r := Take(sorted, HighscoreSize);
    assert sorted == r + sorted[|r|..];
    r
  }

  // ---------------------------------------------------------------------------
  // Ranking on an already sorted table
  // ---------------------------------------------------------------------------

  /** When no entry scores below `e`, the new entry goes last. */
  lemma {:induction false} InsertByScoreAtEnd(t: seq<Entry>, e: Entry)
    requires forall i :: 0 <= i < |t| ==> t[i].score >= e.score
    ensures InsertByScore(t, e) == t + [e]
    decreases |t|
  {
    if t != [] {
      InsertByScoreAtEnd(t[1..], e);
      assert t == [t[0]] + t[1..];
    }
  }

  /** Sorting a sorted table changes nothing. */
  lemma {:induction false} SortSortedIsIdentity(t: seq<Entry>)
    requires SortedByScore(t)
    ensures SortByScore(t) == t
    decreases |t|
  {
    if t != [] {
      var init := t[..|t| - 1];
      SortSortedIsIdentity(init);
      InsertByScoreAtEnd(init, t[|t| - 1]);
      assert init + [t[|t| - 1]] == t;
    }
  }

  /** The insertion point: the index of the first entry scoring below `score`, or the
      table's length when there is none. */
  function FirstBelow(t: seq<Entry>, score: int): (k: nat)
    ensures k <= |t|
    ensures forall i :: 0 <= i < k ==> t[i].score >= score
    ensures k < |t| ==> t[k].score < score
    decreases |t|
  {
    if t == [] || t[0].score < score then 0 else 1 + FirstBelow(t[1..], score)
  }

  /** The insertion step puts the new entry in front of the first entry scoring below it. */
  lemma {:induction false} InsertByScoreSplit(t: seq<Entry>, e: Entry, k: nat)
    requires k <= |t|
    requires forall i :: 0 <= i < k ==> t[i].score >= e.score
    requires k < |t| ==> t[k].score < e.score
    ensures InsertByScore(t, e) == t[..k] + [e] + t[k..]
    decreases k
  {
    if k == 0 {
      assert t[..0] + [e] + t[0..] == [e] + t;
    } else {
      var tail := t[1..];
      assert forall i :: 0 <= i < k - 1 ==> tail[i].score >= e.score by {
        assert forall i :: 0 <= i < k - 1 ==> tail[i] == t[i + 1];
      }
      assert k - 1 < |tail| ==> tail[k - 1].score < e.score by {
        if k - 1 < |tail| {
          assert tail[k - 1] == t[k];
        }
      }
      InsertByScoreSplit(tail, e, k - 1);
      assert InsertByScore(t, e) == [t[0]] + InsertByScore(tail, e) by {
        assert t[0].score >= e.score;
      }
      assert t[..k] == [t[0]] + tail[..k - 1];
      assert t[k..] == tail[k - 1..];
    }
  }

  /** In a sorted table the new entry lands at rank `k`: after every entry scoring at
      least as much (ties included) and before every entry scoring less. */
  lemma InsertByScoreRank(t: seq<Entry>, e: Entry)
    requires SortedByScore(t)
    ensures exists k :: 0 <= k <= |t|
              && InsertByScore(t, e) == t[..k] + [e] + t[k..]
              && (forall i :: 0 <= i < k ==> t[i].score >= e.score)
              && (forall i :: k <= i < |t| ==> t[i].score < e.score)
  {
    var k := FirstBelow(t, e.score);
    InsertByScoreSplit(t, e, k);
  }

  /** Inserting into a sorted table keeps it sorted. */
  lemma InsertByScoreKeepsSorted(t: seq<Entry>, e: Entry)
    requires SortedByScore(t)
    ensures SortedByScore(InsertByScore(t, e))
  {
    var k := FirstBelow(t, e.score);
    InsertByScoreSplit(t, e, k);
    var r := InsertByScore(t, e);
    forall i, j | 0 <= i < j < |r|
      ensures r[i].score >= r[j].score
    {
      if i < k && j > k {
        assert r[j] == t[j - 1];
        assert t[i].score >= e.score;
      }
    }
  }

  /** On a sorted table, inserting is sorting nothing but the new entry into place. */
  lemma InsertHighscoreOnSorted(t: seq<Entry>, name: string, score: int)
    requires SortedByScore(t)
    ensures InsertHighscore(t, name, score) == Take(InsertByScore(t, Entry(name, score)), HighscoreSize)
  {
    var e := Entry(name, score);
    var u := t + [e];
    assert u[..|u| - 1] == t;
    SortSortedIsIdentity(t);
  }

  /** On a full sorted table a qualifying score is inserted at its rank, pushing the
      last entry out, and a score that does not qualify leaves the table unchanged. */
  lemma QualifyingScoreIsInserted(t: seq<Entry>, name: string, score: int)
    requires |t| == HighscoreSize && SortedByScore(t)
    ensures CheckHighscore(t, score) ==>
              exists k :: 0 <= k < HighscoreSize
                && InsertHighscore(t, name, score) == t[..k] + [Entry(name, score)] + t[k..HighscoreSize - 1]
                && (forall i :: 0 <= i < k ==> t[i].score >= score)
                && (forall i :: k <= i < |t| ==> t[i].score < score)
    ensures !CheckHighscore(t, score) ==> InsertHighscore(t, name, score) == t
  {
    var e := Entry(name, score);
    InsertHighscoreOnSorted(t, name, score);
    var k := FirstBelow(t, score);
    InsertByScoreSplit(t, e, k);
    var ins := InsertByScore(t, e);
    assert forall i :: k <= i < |t| ==> t[i].score < score by {
      if k < |t| {
        assert forall i :: k <= i < |t| ==> t[i].score <= t[k].score;
      }
    }
    if CheckHighscore(t, score) {
      assert k < HighscoreSize;
      var want := t[..k] + [e] + t[k..HighscoreSize - 1];
      assert |want| == HighscoreSize;
      forall i | 0 <= i < HighscoreSize
        ensures ins[i] == want[i]
      {
        if i > k {
          assert ins[i] == t[i - 1] == want[i];
        }
      }
      assert ins[..HighscoreSize] == want;
    } else {
      assert k == HighscoreSize;
      assert ins[..HighscoreSize] == t;
    }
  }

  /** The default table is sorted, and on it exactly the positive scores qualify. */
  lemma DefaultTableQualification(score: int)
    ensures SortedByScore(DefaultTable())
    ensures CheckHighscore(DefaultTable(), score) <==> score > 0
  {
  }
}

=== FILE: tetromino.dfy ===
/** The seven-piece catalog, the clockwise rotation and the 7-bag randomiser
    (`tetromino.js`). */
module Tetromino {
  import opened SeqUtil

  /** A piece kind: an index into the catalog. */
  type Kind = k: int | 0 <= k < 7

  /** A row-major matrix of cells; 0 is an empty cell. */
  type Shape = seq<seq<int>>

  /** A catalog entry: the shape and its opaque colour token. */
  datatype PieceDef = PieceDef(shape: Shape, color: string)

  /** A dealt piece: its kind and its own copy of the shape, which rotation replaces. */
  datatype Piece = Piece(kind: Kind, shape: Shape)

  /** The fixed catalog, in the source's order I, J, L, O, S, T, Z. */
  function Catalog(k: Kind): PieceDef
  {
    if k == 0 then PieceDef([[1, 1, 1, 1]], "#00f0f0")
    else if k == 1 then PieceDef([[1, 0, 0], [1, 1, 1]], "#0000f0")
    else if k == 2 then PieceDef([[0, 0, 1], [1, 1, 1]], "#f0a000")
    else if k == 3 then PieceDef([[1, 1], [1, 1]], "#f0f000")
    else if k == 4 then PieceDef([[0, 1, 1], [1, 1, 0]], "#00f000")
    else if k == 5 then PieceDef([[0, 1, 0], [1, 1, 1]], "#a000f0")
    else PieceDef([[1, 1, 0], [0, 1, 1]], "#f00000")
  }

  /** The catalog shape of a kind. */
  function CatalogShape(k: Kind): Shape
  {
    Catalog(k).shape
  }

  // ---------------------------------------------------------------------------
  // Matrices and occupied cells
  // ---------------------------------------------------------------------------

  /** A non-empty rectangular matrix: every row as long as the first, which is non-empty. */
  predicate IsMatrix(s: Shape)
  {
    |s| > 0 && |s[0]| > 0 && forall r :: 0 <= r < |s| ==> |s[r]| == |s[0]|
  }

  /** Every cell is 0 or 1. */
  predicate IsBinary(s: Shape)
  {
    forall r, c :: 0 <= r < |s| && 0 <= c < |s[r]| ==> s[r][c] == 0 || s[r][c] == 1
  }

  function Width(s: Shape): nat
    requires |s| > 0
  {
    |s[0]|
  }

  /** The coordinates (row, column) of the occupied cells. */
  function Cells(s: Shape): set<(int, int)>
  {
    set r, c | 0 <= r < |s| && 0 <= c < |s[r]| && s[r][c] != 0 :: (r, c)
  }

  // ---------------------------------------------------------------------------
  // Rotation
  // ---------------------------------------------------------------------------

  /** Column `i` of the matrix, top to bottom. */
  function Column(s: Shape, i: nat): seq<int>
    requires IsMatrix(s) && i < Width(s)
  {
    seq(|s|, k requires 0 <= k < |s| => s[k][i])
  }

  /** Clockwise quarter turn: row `i` of the result is column `i` read bottom to top,
      so an R x C matrix becomes a C x R matrix. */
  function Rotate(s: Shape): (t: Shape)
    requires IsMatrix(s)
    ensures IsMatrix(t)
    ensures |t| == Width(s) && Width(t) == |s|
  {
    seq(Width(s), i requires 0 <= i < Width(s) => Reverse(Column(s, i)))
  }

  /** Rotation moves the cell at row `|s| - 1 - j`, column `i` to row `i`, column `j`. */
  lemma RotateCell(s: Shape)
    requires IsMatrix(s)
    ensures forall i, j :: 0 <= i < Width(s) && 0 <= j < |s| ==> Rotate(s)[i][j] == s[|s| - 1 - j][i]
  {
  }

  /** Two quarter turns: a half turn. */
  lemma RotateTwice(s: Shape)
    requires IsMatrix(s)
    ensures |Rotate(Rotate(s))| == |s| && Width(Rotate(Rotate(s))) == Width(s)
    ensures forall i, j :: 0 <= i < |s| && 0 <= j < Width(s) ==>
              Rotate(Rotate(s))[i][j] == s[|s| - 1 - i][Width(s) - 1 - j]
  {
    var t := Rotate(s);
    var u := Rotate(t);
    RotateCell(s);
    RotateCell(t);
    forall i, j | 0 <= i < |s| && 0 <= j < Width(s)
      ensures u[i][j] == s[|s| - 1 - i][Width(s) - 1 - j]
    {
      assert u[i][j] == t[|t| - 1 - j][i];
    }
  }

  /** Four clockwise rotations give back the original matrix. */
  lemma RotateFourTimes(s: Shape)
    requires IsMatrix(s)
    ensures Rotate(Rotate(Rotate(Rotate(s)))) == s
  {
    var h := Rotate(Rotate(s));
    RotateTwice(s);
    RotateTwice(h);
    var u := Rotate(Rotate(h));
    assert |u| == |s|;
    forall i | 0 <= i < |s|
      ensures u[i] == s[i]
    {
      assert |u[i]| == |s[i]|;
      forall j | 0 <= j < |s[i]|
        ensures u[i][j] == s[i][j]
      {
        assert u[i][j] == h[|h| - 1 - i][Width(h) - 1 - j];
      }
    }
  }

  /** `n` clockwise rotations. */
  function RotateN(s: Shape, n: nat): (t: Shape)
    requires IsMatrix(s)
    ensures IsMatrix(t)
  {
    if n == 0 then s else Rotate(RotateN(s, n - 1))
  }

  /** Where a quarter turn sends the cell (row, column) of a matrix of height `h`. */
  function QuarterTurn(p: (int, int), h: int): (int, int)
  {
    (p.1, h - 1 - p.0)
  }

  /** The occupied cells of the rotated matrix are the quarter-turned occupied cells. */
  lemma RotateMovesCells(s: Shape)
    requires IsMatrix(s)
    ensures Cells(Rotate(s)) == set p | p in Cells(s) :: QuarterTurn(p, |s|)
  {
    var t := Rotate(s);
    RotateCell(s);
    forall q | q in Cells(t)
      ensures q in set p | p in Cells(s) :: QuarterTurn(p, |s|)
    {
      var p := (|s| - 1 - q.1, q.0);
      assert p in Cells(s);
      assert QuarterTurn(p, |s|) == q;
    }
    forall p | p in Cells(s)
      ensures QuarterTurn(p, |s|) in Cells(t)
    {
      assert t[p.1][|s| - 1 - p.0] == s[p.0][p.1];
    }
  }

  /** A quarter turn is injective, so it keeps the size of any set of cells. */
  lemma {:induction false} QuarterTurnKeepsSize(a: set<(int, int)>, h: int)
    ensures |set p | p in a :: QuarterTurn(p, h)| == |a|
    decreases |a|
  {
    if a != {} {
      var x :| x in a;
      var rest := a - {x};
      QuarterTurnKeepsSize(rest, h);
      var img := set p | p in a :: QuarterTurn(p, h);
      var imgRest := set p | p in rest :: QuarterTurn(p, h);
      assert img == imgRest + {QuarterTurn(x, h)};
      assert QuarterTurn(x, h) !in imgRest;
    }
  }

  /** Rotation keeps the number of occupied cells. */
  lemma RotateKeepsCellCount(s: Shape)
    requires IsMatrix(s)
    ensures |Cells(Rotate(s))| == |Cells(s)|
  {
    RotateMovesCells(s);
    QuarterTurnKeepsSize(Cells(s), |s|);
  }

  /** Rotation keeps a matrix 0/1. */
  lemma RotateKeepsBinary(s: Shape)
    requires IsMatrix(s) && IsBinary(s)
    ensures IsBinary(Rotate(s))
  {
    var t := Rotate(s);
    RotateCell(s);
    forall r, c | 0 <= r < |t| && 0 <= c < |t[r]|
      ensures t[r][c] == 0 || t[r][c] == 1
    {
      assert t[r][c] == s[|s| - 1 - c][r];
    }
  }

  // ---------------------------------------------------------------------------
  // Facts about the catalog
  // ---------------------------------------------------------------------------

  /** Each catalog shape is a 0/1 matrix of at most two rows and four columns with
      four occupied cells. */
  lemma CatalogShapeFacts(k: Kind)
    ensures IsMatrix(CatalogShape(k)) && IsBinary(CatalogShape(k))
    ensures |CatalogShape(k)| <= 2 && Width(CatalogShape(k)) <= 4
    ensures |Cells(CatalogShape(k))| == 4
  {
    if k == 0 {
      assert Cells(CatalogShape(k)) == {(0, 0), (0, 1), (0, 2), (0, 3)};
    } else if k == 3 {
      assert Cells(CatalogShape(k)) == {(0, 0), (0, 1), (1, 0), (1, 1)};
    } else {
      ThreeWideCells(k);
    }
  }

  /** The five pieces three cells wide and two high (J, L, S, T, Z) occupy four cells each. */
  lemma ThreeWideCells(k: Kind)
    requires k != 0 && k != 3
    ensures |CatalogShape(k)| == 2 && Width(CatalogShape(k)) == 3
    ensures |Cells(CatalogShape(k))| == 4
  {
    var s := CatalogShape(k);
    if k == 1 {
      assert Cells(s) == {(0, 0), (1, 0), (1, 1), (1, 2)};
    } else if k == 2 {
      assert Cells(s) == {(0, 2), (1, 0), (1, 1), (1, 2)};
    } else if k == 4 {
      assert Cells(s) == {(0, 1), (0, 2), (1, 0), (1, 1)};
    } else if k == 5 {
      assert Cells(s) == {(0, 1), (1, 0), (1, 1), (1, 2)};
    } else {
      assert Cells(s) == {(0, 0), (0, 1), (1, 1), (1, 2)};
    }
  }

  /** Each of the seven catalog entries is a rectangular 0/1 matrix with four occupied cells. */
  lemma CatalogWellFormed()
    ensures forall k: Kind :: IsMatrix(CatalogShape(k)) && IsBinary(CatalogShape(k))
                              && |Cells(CatalogShape(k))| == 4
  {
    forall k: Kind
      ensures IsMatrix(CatalogShape(k)) && IsBinary(CatalogShape(k))
              && |Cells(CatalogShape(k))| == 4
    {
      CatalogShapeFacts(k);
    }
  }

  /** A rectangular matrix with at least one occupied cell: what the board code needs
      of a falling piece's shape. */
  predicate IsSolid(s: Shape)
  {
    IsMatrix(s) && Cells(s) != {}
  }

  /** Rotation keeps a shape solid. */
  lemma RotateKeepsSolid(s: Shape)
    requires IsSolid(s)
    ensures IsSolid(Rotate(s))
  {
    RotateKeepsCellCount(s);
  }

  /** Every catalog shape is solid. */
  lemma CatalogShapeSolid(k: Kind)
    ensures IsSolid(CatalogShape(k))
  {
    CatalogShapeFacts(k);
  }

  /** A piece whose shape is one of the four orientations of its catalog shape. */
  predicate IsOriented(p: Piece)
  {
    IsMatrix(p.shape)
    && |Cells(p.shape)| == 4
    && exists n :: 0 <= n < 4 && p.shape == RotateN(CatalogShape(p.kind), n)
  }

  /** Every orientation of a catalog shape has four occupied cells. */
  lemma {:induction false} OrientationCellCount(k: Kind, n: nat)
    ensures |Cells(RotateN(CatalogShape(k), n))| == 4
  {
    CatalogShapeFacts(k);
    if n > 0 {
      OrientationCellCount(k, n - 1);
      RotateKeepsCellCount(RotateN(CatalogShape(k), n - 1));
    }
  }

  /** A quarter turn of the `n`-th orientation is again one of the four orientations. */
  lemma NextOrientation(c: Shape, n: nat)
    requires IsMatrix(c) && n < 4
    ensures Rotate(RotateN(c, n)) == RotateN(c, (n + 1) % 4)
  {
    if n == 3 {
      FourthTurn(c);
      assert (n + 1) % 4 == 0;
    } else {
      assert (n + 1) % 4 == n + 1;
      assert RotateN(c, n + 1) == Rotate(RotateN(c, n));
    }
  }

  /** The fourth quarter turn closes the cycle. */
  lemma FourthTurn(c: Shape)
    requires IsMatrix(c)
    ensures Rotate(RotateN(c, 3)) == RotateN(c, 0)
  {
    var r1 := Rotate(c);
    var r2 := Rotate(r1);
    assert RotateN(c, 1) == r1;
    assert RotateN(c, 2) == r2;
    assert RotateN(c, 3) == Rotate(r2);
    RotateFourTimes(c);
  }

  /** A clockwise turn of an oriented piece is again an orientation of its kind. */
  lemma RotateKeepsOriented(p: Piece)
    ensures IsOriented(p) ==> IsOriented(p.(shape := Rotate(p.shape)))
  {
    if IsOriented(p) {
      var c := CatalogShape(p.kind);
      CatalogShapeFacts(p.kind);
      var n :| 0 <= n < 4 && p.shape == RotateN(c, n);
      RotateKeepsCellCount(p.shape);
      NextOrientation(c, n);
      var q := p.(shape := Rotate(p.shape));
      assert q.shape == RotateN(CatalogShape(q.kind), (n + 1) % 4);
    }
  }

  /** A fresh copy of a catalog shape is an oriented piece. */
  lemma FreshPieceOriented(k: Kind)
    ensures IsOriented(Piece(k, CatalogShape(k)))
  {
    CatalogShapeFacts(k);
    assert CatalogShape(k) == RotateN(CatalogShape(k), 0);
  }

  // ---------------------------------------------------------------------------
  // The bag randomiser
  // ---------------------------------------------------------------------------

  const AllKinds: seq<Kind> := [0, 1, 2, 3, 4, 5, 6]

  /** The random choices of one shuffle, in loop order: `js[k]` is the swap
      partner picked when the loop index is `6 - k`, so `0 <= js[k] <= 6 - k`. */
  predicate IsSwapChoice(js: seq<int>)
  {
    |js| == 6 && forall k :: 0 <= k < 6 ==> 0 <= js[k] <= 6 - k
  }

  type Swaps = js: seq<int> | IsSwapChoice(js) witness [0, 0, 0, 0, 0, 0]

  /** Exchange two positions of the bag. */
  function Swap(bag: seq<Kind>, i: nat, j: nat): (r: seq<Kind>)
    requires i < |bag| && j < |bag|
    ensures |r| == |bag|
  {
    bag[i := bag[j]][j := bag[i]]
  }

  /** The Fisher-Yates loop from index `i` down to 1, using `js[0]` for `i`. */
  function FisherYates(bag: seq<Kind>, i: nat, js: seq<int>): (r: seq<Kind>)
    requires i < |bag| && |js| == i
    requires forall k :: 0 <= k < i ==> 0 <= js[k] <= i - k
    ensures |r| == |bag|
    decreases i
  {
    if i == 0 then bag else FisherYates(Swap(bag, i, js[0]), i - 1, js[1..])
  }

  /** An exchange keeps the bag's contents. */
  lemma SwapPermutes(bag: seq<Kind>, i: nat, j: nat)
    requires i < |bag| && j < |bag|
    ensures multiset(Swap(bag, i, j)) == multiset(bag)
  {
  }

  /** The shuffle only reorders the bag. */
  lemma {:induction false} FisherYatesPermutes(bag: seq<Kind>, i: nat, js: seq<int>)
    requires i < |bag| && |js| == i
    requires forall k :: 0 <= k < i ==> 0 <= js[k] <= i - k
    ensures multiset(FisherYates(bag, i, js)) == multiset(bag)
    decreases i
  {
    if i > 0 {
      SwapPermutes(bag, i, js[0]);
      FisherYatesPermutes(Swap(bag, i, js[0]), i - 1, js[1..]);
    }
  }

  /** A freshly shuffled bag of the seven kinds. */
  function NewBag(js: Swaps): (bag: seq<Kind>)
    ensures |bag| == 7
  {
    FisherYates(AllKinds, 6, js)
  }

  /** A fresh bag is a permutation of the seven kinds. */
  lemma NewBagPermutes(js: Swaps)
    ensures multiset(NewBag(js)) == multiset(AllKinds)
  {
    FisherYatesPermutes(AllKinds, 6, js);
  }

  /** In a sequence without repeats every member occurs exactly once. */
  lemma {:induction false} DistinctCountsOnce<T>(s: seq<T>, x: T)
    requires forall i, j :: 0 <= i < j < |s| ==> s[i] != s[j]
    ensures multiset(s)[x] == if x in s then 1 else 0
    decreases |s|
  {
    if s != [] {
      assert s == [s[0]] + s[1..];
      DistinctCountsOnce(s[1..], x);
      if x == s[0] {
        assert x !in s[1..];
      }
    }
  }

  /** Every kind occurs in a permutation of the seven kinds exactly once. */
  lemma PermutationHoldsEachKindOnce(bag: seq<Kind>)
    requires multiset(bag) == multiset(AllKinds)
    ensures |bag| == 7
    ensures forall k: Kind :: multiset(bag)[k] == 1
  {
    assert |multiset(bag)| == |multiset(AllKinds)|;
    forall k: Kind
      ensures multiset(bag)[k] == 1
    {
      assert AllKinds[k] == k;
      DistinctCountsOnce(AllKinds, k);
    }
  }

  /** The outcome of one draw: the dealt piece and what is left in the bag. */
  datatype Draw = Draw(piece: Piece, bag: seq<Kind>)

  /** Pop the last kind of a non-empty bag and copy its catalog shape. */
  function Pop(full: seq<Kind>): (d: Draw)
    requires |full| > 0
    ensures d.piece.shape == CatalogShape(d.piece.kind)
    ensures d.bag + [d.piece.kind] == full
  {
    var kind := full[|full| - 1];
    assert full[..|full| - 1] + [kind] == full;
    Draw(Piece(kind, CatalogShape(kind)), full[..|full| - 1])
  }

  /** Refill an empty bag, then pop one kind from it. */
  function NextTetromino(bag: seq<Kind>, js: Swaps): (d: Draw)
    ensures d.piece.shape == CatalogShape(d.piece.kind)
    ensures d.bag + [d.piece.kind] == if bag == [] then NewBag(js) else bag
  {
    Pop(if bag == [] then NewBag(js) else bag)
  }

  /** The kinds dealt by successive draws, one shuffle choice per draw. */
  function Deal(bag: seq<Kind>, choices: seq<Swaps>): (kinds: seq<Kind>)
    ensures |kinds| == |choices|
    decreases |choices|
  {
    if choices == [] then []
    else
      var d := NextTetromino(bag, choices[0]);
      [d.piece.kind] + Deal(d.bag, choices[1..])
  }

  /** Draining a non-empty bag deals its contents from the end. */
  lemma {:induction false} DealDrainsBag(bag: seq<Kind>, choices: seq<Swaps>)
    requires |choices| == |bag|
    ensures Deal(bag, choices) == Reverse(bag)
    decreases |bag|
  {
    if bag != [] {
      var init, last := bag[..|bag| - 1], bag[|bag| - 1];
      var d := NextTetromino(bag, choices[0]);
      assert d.bag == init && d.piece.kind == last;
      DealDrainsBag(init, choices[1..]);
      assert Deal(bag, choices) == [last] + Reverse(init);
      ReverseSnoc(init, last);
      assert init + [last] == bag;
    }
  }

  /** Seven draws from an empty bag refill it once and deal the refill from the end. */
  lemma SevenDrawsFromEmpty(choices: seq<Swaps>)
    requires |choices| == 7
    ensures Deal([], choices) == Reverse(NewBag(choices[0]))
  {
    var full := NewBag(choices[0]);
    var d := NextTetromino([], choices[0]);
    assert d.bag + [d.piece.kind] == full;
    DealDrainsBag(d.bag, choices[1..]);
    assert Deal([], choices) == [d.piece.kind] + Deal(d.bag, choices[1..]);
    ReverseSnoc(d.bag, d.piece.kind);
  }

  /** Seven draws from an empty or a full (freshly shuffled) bag deal every kind exactly once. */
  lemma SevenDrawsDealEachKindOnce(bag: seq<Kind>, choices: seq<Swaps>)
    requires |choices| == 7
    requires bag == [] || multiset(bag) == multiset(AllKinds)
    ensures multiset(Deal(bag, choices)) == multiset(AllKinds)
    ensures forall k: Kind :: multiset(Deal(bag, choices))[k] == 1
  {
    var full := if bag == [] then NewBag(choices[0]) else bag;
    if bag == [] {
      SevenDrawsFromEmpty(choices);
      NewBagPermutes(choices[0]);
    } else {
      assert |multiset(bag)| == 7;
      DealDrainsBag(bag, choices);
    }
    ReverseIsPermutation(full);
    PermutationHoldsEachKindOnce(Deal(bag, choices));
  }
}
